=== FILE: README.md ===
# DECALNIK layout model

DECALNIK is a Blender add-on. It renders a font atlas: one bitmap, a grid of
cells, one character per cell. It then spells a text out of flat quads at
the 3D cursor, each quad textured with its character's cell of the atlas.

This project models the arithmetic of that pipeline as pure Dafny
functions, with exact `real` coordinates:

- where the atlas draws character `i` (`Grid`, `Atlas`);
- the UV rectangle the decal builder records for each character, the
  dictionary that holds them, and the per-glyph horizontal UV stretch (`Uv`);
- the text handling: the literal `\n` escape, the split into lines, and the
  upper-casing used for lookup (`Text`);
- the width table, measured or unit (`Widths`);
- the placement of quads, line by line, centred on the cursor (`Layout`);
- the generate operator, with its error cases in the order the code meets
  them (`Decalnik`).

The imaging library's glyph measurement is the parameter
`maskWidth: char -> nat`, the pixel width of the rendered mask. The 3D
cursor is the parameter `cursor`. Whether the blend file is saved is the
pair of parameters `blendSaved` and `blendPath`.

The atlas step opens the font at decalnik.py:88, before it computes the
cell size. An empty font path therefore stops the operator with the
`NoFont` error, and the operator always lays out with measured widths.
The unit widths of line 174 (`Widths.UnitWidths`, `Layout.RunWidthUnit`,
`Layout.UnitWidthLine`) describe the decal builder when it is called on
its own with an empty font path.

Python's `//` and `%` round toward minus infinity. `PyArith` models them that
way, so negative cell counts behave as they would in Python. A cell count of
zero is the `ZeroCellCount` error, which stands for Python's
`ZeroDivisionError`.

The layout functions take the UV table as a parameter. Their lemmas
therefore hold for the table as written and for the corrected one (see
Findings). `Decalnik.Generate` uses the table as written, because that is
what the add-on does. On the default 8 x 8 grid the two tables are the same
(`Grid.UvCellSquareAgrees`, `Decalnik.DefaultsAreConsistent`).

The UV rectangles are meant to match the cells the atlas draws into. As
written, they match those cells only on square grids
(`Grid.UvAgreesIffSquare`), and a rectangle lies in the unit square only
for indices below `rows * rows` (`Uv.UvRectInUnitSquareIff`). The model
follows the code here.

## Model

| member | source | states |
|---|---|---|
| `PyArith.FloorDiv` | decalnik.py:95 | `a // b` is the floor quotient: `b*q <= a < b*q + b` for `b > 0`, the mirrored bounds for `b < 0` |
| `PyArith.FloorMod` | decalnik.py:94 | `a % b` completes `a == b*(a // b) + r`, with `0 <= r < b` for `b > 0` and `b < r <= 0` for `b < 0` |
| `Grid.AtlasCell` | decalnik.py:94-95 | the atlas cell of index `i` numbers back to `i` (row-major), and on a positive grid its column is in range and its row is not negative |
| `Grid.UvCell` | decalnik.py:149-150 | the UV cell has the atlas column but takes its row from `i // rows` (`rows*row <= i < rows*row + rows`) |
| `Grid.CellIndexRoundTrip` | decalnik.py:94-95 | every cell with an in-range column is the atlas cell of its own row-major index |
| `Grid.AtlasCellInGridIff` | decalnik.py:94-95 | character `i` is drawn in a cell of the grid if and only if `i < cols * rows` |
| `Grid.UvCellSquareAgrees` | decalnik.py:149-150 | on a square grid the UV cell is the atlas cell for every index |
| `Grid.UvAgreesIffSquare` | decalnik.py:149-150 | the UV cell is the atlas cell (row `i // cols`, line 95) for every in-range index if and only if `cols == rows` |
| `Grid.UvRowDiffersExample` | decalnik.py:149-150 | on a 4 x 2 grid, character 4 is drawn in row 1 but textured from row 2, which is outside the grid |
| `Uv.CellRect` | decalnik.py:151-155 | a cell's UV rectangle has corners in the order (umin,vmin), (umax,vmin), (umax,vmax), (umin,vmax), and is `1/cols` wide and `1/rows` high; `Atlas.GlyphCentreIsUvCentre` states where in the texture it lies |
| `Uv.UvRect` | decalnik.py:148-155 | the UV rectangle recorded for index `i` is an axis-aligned rectangle in that corner order, spanning exactly `1/cols` in u and `1/rows` in v |
| `Uv.UvRectIntended` | decalnik.py:151-154 | the rectangle of the cell the atlas really draws into has the same shape |
| `Uv.CellRectInUnitSquareIff` | decalnik.py:151-154 | a cell's UV rectangle lies in the unit square if and only if the cell is in the grid |
| `Uv.UvRectInUnitSquareIff` | decalnik.py:149-154 | as written, the UV rectangle of index `i` lies in the unit square if and only if `i < rows * rows` |
| `Uv.UvRectIntendedInUnitSquareIff` | decalnik.py:151-154 | with the atlas row, the rectangle lies in the unit square if and only if `i < cols * rows` |
| `Uv.IntendedRectsDisjoint` | decalnik.py:151-154 | with the atlas row, distinct indices have rectangles with no common interior point |
| `Uv.IntendedRectsCover` | decalnik.py:151-154 | with the atlas row, every point of the unit square lies in the rectangle of some index below `cols * rows` |
| `Uv.UvEntries` | decalnik.py:147-155 | the dictionary has exactly the characters of the set as keys, and each key holds the rectangle of its last occurrence |
| `Uv.UvTable` | decalnik.py:147-155 | the UV loop fails with a zero-division error exactly when the set is non-empty and a cell count is 0; otherwise it yields the dictionary above |
| `Uv.ScaleU` | decalnik.py:206-213 | stretching by `w` keeps the u and v centre, leaves every v unchanged, multiplies the u-extent by `w`, keeps a rectangle a rectangle for `w >= 0`, and is the identity for `w == 1` |
| `Uv.ScaleURoundTrip` | decalnik.py:206-213 | stretching by `w` and then by `1/w` restores the UV quad |
| `Atlas.CellSize` | decalnik.py:90 | a cell is the image size divided by the cell counts |
| `Atlas.GlyphOrigin` | decalnik.py:94-99 | the glyph's horizontal centre is the centre of its cell column; the target-height box plus the vertical offset is centred on the cell row; a glyph no wider than a cell stays inside its cell horizontally |
| `Atlas.AtlasLayout` | decalnik.py:90-102 | the drawing loop fails exactly when a cell count is 0, even for an empty set; otherwise it draws every character, in order, at its `GlyphOrigin` |
| `Atlas.GlyphCentreIsUvCentre` | decalnik.py:89-99 | the centre of the glyph's box as drawn (mask width across, target height down, before the vertical offset), as a fraction of the image with v counted from the bottom, is the centre of the UV rectangle (lines 151-154) of the cell the atlas draws it into |
| `Atlas.SquareGlyphCentreIsUvCentre` | decalnik.py:148-154 | on a square grid the rectangle recorded as written is centred on the glyph the atlas draws, in the same sense |
| `Atlas.AtlasGlyphsInsideImage` | decalnik.py:93-98 | with a cell for every character, a glyph no wider than a cell is drawn horizontally inside the image |
| `Text.Upper` | decalnik.py:187 | upper-casing changes exactly the letters a..z (each to its capital), dotless i (to `I`) and long s (to `S`); it never returns a letter a..z, and its result is ASCII exactly when the character is ASCII or one of those two |
| `Text.Unescape` | decalnik.py:127 | each backslash-`n` becomes one line break: the text shrinks by the number of escapes, gains as many line breaks, and keeps no backslash followed by `n`; a text without escapes comes back unchanged |
| `Text.UnescapeSplice` | decalnik.py:127 | an escape anywhere in a text becomes a line break in place, and the text on either side is unescaped on its own, stray backslashes included |
| `Text.UnescapeEscape` | decalnik.py:127 | unescaping inverts writing line breaks as backslash-`n`, for text without backslashes |
| `Text.SplitLines` | decalnik.py:177 | the split has one more line than the text has line breaks, no line holds a line break, and joining the lines with line breaks gives the text back |
| `Text.SplitJoinRoundTrip` | decalnik.py:177 | splitting the join of lines without line breaks gives back those lines, so the split is the only one with these properties |
| `Text.NoNewlineSplit` | decalnik.py:177 | a text without line breaks is a single line |
| `Text.Lines` | decalnik.py:177 | the text is laid out as one more line than it has line breaks and escapes together, none holding a line break; `Text.LinesJoin` and `Text.LinesUnique` state what the lines hold |
| `Text.LinesJoin` | decalnik.py:127-177 | the lines joined back with line breaks give the text with its escapes replaced |
| `Text.LinesUnique` | decalnik.py:127-177 | any lines without line breaks that join to the unescaped text are the text's lines, so each line is one line-break-separated segment |
| `Widths.MeasuredWidths` | decalnik.py:63-73 | one entry per character of the set, non-negative, equal to the mask width times 0.8 divided by the target height |
| `Widths.UnitWidths` | decalnik.py:174 | one entry per character of the set, each equal to 1 |
| `Widths.CharWidths` | decalnik.py:170-174 | the table has the characters of the set as keys and non-negative widths: measured when a font path is set, all 1 otherwise |
| `Layout.Keys` | decalnik.py:190-191 | the drawn keys of a line are table keys, at most one per character; `Layout.KeysPlacedChar` and `Layout.UnplacedCharIgnored` state which characters give one |
| `Layout.KeysPlacedChar` | decalnik.py:187-191 | a character whose upper-case form is a table key gives exactly that key, in its place among the keys of the rest of the line |
| `Layout.PlacedCharWidens` | decalnik.py:187 | a drawn character adds the width of its upper-case form to the line's width |
| `Layout.LowercaseKeysNeverDrawn` | decalnik.py:187-191 | since lookup goes through the upper-case form, no key in a..z is ever drawn |
| `Layout.LineWidth` | decalnik.py:187 | a line with no drawn character is 0 wide, and with non-negative widths no line has negative width; `Layout.LineWidthAppend` states how it adds up over the parts of a line |
| `Layout.MakeGlyph` | decalnik.py:192-213 | a quad placed at pen `p` spans `p` to `p + w`, sits at the current cursor height and depth, and carries its UV rectangle stretched by `w` |
| `Layout.PlaceChars` | decalnik.py:190-216 | a line yields one quad per drawn character, all on that line at the cursor height and depth |
| `Layout.PlaceCharsIsPlaceKeys` | decalnik.py:190-191 | the loop that passes over undrawn characters lays out the same quads as placing the drawn keys one after another |
| `Layout.PlaceKeysAt` | decalnik.py:188-216 | quad `j` shows key `j`, and its left edge is the start pen plus the widths of the keys before it |
| `Layout.LineLayout` | decalnik.py:188-216 | a line yields one quad per drawn character, each showing a table key, on line `k` at the cursor's height and depth; `Layout.LineQuadAt`, `Layout.LineQuadsAbut` and `Layout.LineCentred` state where the quads sit |
| `Layout.LineQuadAt` | decalnik.py:187-216 | in a laid-out line, quad `j`'s left edge is `cursor.x - total/2` plus the widths of the drawn characters before it |
| `Layout.LineWidthAppend` | decalnik.py:187 | the width of two pieces of a line is the sum of their widths |
| `Layout.RunWidthUnit` | decalnik.py:174 | with unit widths, a run is as wide as it has keys |
| `Layout.UnplacedCharIgnored` | decalnik.py:187-191 | a character with no UV rectangle adds no width and no quad: the line lays out as if it were absent |
| `Layout.LineQuadsAbut` | decalnik.py:202-216 | each quad of a line starts where the previous one ends, with no gap and no overlap |
| `Layout.LineCentred` | decalnik.py:187-216 | the first quad starts at `cursor.x - total/2`, the last ends at `cursor.x + total/2`, so the line's midpoint is the cursor's x |
| `Layout.UnitWidthLine` | decalnik.py:174-216 | with unit widths every quad is 1 wide, keeps its UV rectangle unchanged, and quad `j` of `n` is centred at `cursor.x - n/2 + j + 1/2` |
| `Layout.LayoutText` | decalnik.py:176-218 | every quad of the text shows a table key and sits on a line of the text, `k` units below the cursor for line `k`, at the cursor's depth |
| `Layout.LineBlocks` | decalnik.py:186-218 | the outer loop gives one block per line, with one quad per drawn character of that line; the quads of line `k` are numbered `k` and sit `k` units below the cursor, since the cursor moves down one unit after each line |
| `Layout.Flatten` | decalnik.py:181-195 | the list of created objects holds every quad of every line and nothing else, and is as long as the blocks together; `Layout.FlattenBlockAt` states that each line's quads form one contiguous run, in line order |
| `Layout.FlattenLast` | decalnik.py:186-195 | the list after the last line is the list after the lines before it, followed by the last line's quads |
| `Layout.LayoutTextCount` | decalnik.py:186-195 | a text yields exactly one quad per drawn character, summed over its lines |
| `Layout.TextLineBlock` | decalnik.py:186-218 | the quads of line `m` are one contiguous block of the result, after the lines before it, equal to that line laid out alone `m` units lower |
| `Layout.LayoutTextEmptyIff` | decalnik.py:186-224 | a text yields no quad at all exactly when none of its lines has a drawn character |
| `Decalnik.Generate` | decalnik.py:46-60 | an unsaved file gives the save message; otherwise an empty text gives the text message; otherwise an empty font path fails to open a font; otherwise a zero cell count fails. A success has a font path and positive-size grid; its atlas is the drawing loop's output; its UV table has exactly the set's characters, each with the as-written rectangle of its last occurrence; its quads are the text's layout with the measured widths, at least one of them, each on its line |
| `Decalnik.GenerateNoGlyphsIff` | decalnik.py:222-224 | once the checks pass and a font is open, the run fails at the join exactly when no line of the text has a character of the set |
| `Decalnik.DefaultsAreConsistent` | decalnik.py:322-349 | with the default 45 characters on the default 8 x 8 grid, every character's cell is in the grid, its UV cell is its atlas cell, and its UV rectangle lies in the unit square |

## Left out

- Rasterising and measuring glyphs with the imaging library (decalnik.py:63-73, 85-102). These are foreign calls. The mask width is the parameter `maskWidth`, and the colours are not modelled.
- A non-empty font path that cannot be opened. The imaging library raises inside `truetype` (decalnik.py:67, 88), but whether a file opens depends on the file system. Only the empty path is modelled, as the `NoFont` error.
- Every scene edit: creating materials and nodes, adding and scaling planes, `transform_apply`, the join, `origin_set`, moving and rotating the decal to the cursor, the decal scale, and the view-vector offset (decalnik.py:134-145, 157-168, 192-203, 215, 220-247). These are host calls. The model keeps each quad's centre, width and UVs. A quad's height is always 1, since the plane has size 1.
- The plane's loop order. The model gives UV corner `i` to corner `i` of the quad, on the assumption that the host's plane loops run (min,min), (max,min), (max,max), (min,max).
- Saving, loading and reloading the atlas image, and the path handling (decalnik.py:104-120). This is file I/O. It includes the `PermissionError` branch, which refers to an undefined `self` on line 108.
- Parsing the atlas size string such as `"1024x1024"` (decalnik.py:78). The model takes width and height as positive integers.
- The Pillow installer, the panel, the property declarations and `register`/`unregister` (decalnik.py:19-39, 251-375). Only the property bounds (`Decalnik.ValidProps`) and the defaults (`Decalnik.DefaultCharacters`, 8 x 8) are kept.
- Floating point and the `int(c * 255)` colour conversion. Coordinates are exact reals, so `cv + (v - cv)` is exactly `v` here.
- Text.Upper: maps only the characters whose Python upper-case form is a single ASCII character, and keeps every other character as it is. Python also maps other letters, such as `é` to `É`. It maps a few letters to several characters, such as `ß` to `SS` and `ﬁ` to `FI`, and a string of several characters is never a key. The model therefore differs only when the character set holds non-ASCII characters. With `é` in the set, the model draws `é` for the text `é`, while the add-on looks up `É`. With `ß` in the set, the model draws `ß`, while the add-on looks up `SS` and draws nothing. For a set of ASCII characters the lookups agree.

## Findings

| source | as written | input that shows it | evidently intended | confidence | as-written member | corrected member |
|---|---|---|---|---|---|---|
| decalnik.py:150 | the UV row is `i // CELL_COUNT[1]` (divides by the row count) | cell count 4 x 2, character index 4: drawn in atlas row 1 (line 95), textured from row 2, which gives v from -0.5 to 0, outside the texture | `i // CELL_COUNT[0]`, the row the atlas draws into, as on line 95 | high; not executed | `Grid.UvRowDiffersExample` | `Uv.UvRectIntended` |

`Grid.UvAgreesIffSquare` shows that the two rows agree on every grid cell only on square grids. `Uv.UvRectIntendedInUnitSquareIff`, `Uv.IntendedRectsDisjoint` and `Uv.IntendedRectsCover` prove what the corrected rectangle gives: a rectangle inside the texture for every index the grid has room for, with the rectangles tiling the unit square. `Decalnik.Generate` keeps the table as written, because it models the add-on as it is. The layout lemmas hold for any UV table.

=== FILE: atlas.dfy ===
/** Where the atlas image draws each character. Rasterising is done by the
    imaging library; what is modelled is the pixel position handed to it. */
module Atlas {
  import opened Geometry
  import opened Grid
  import opened Results
  import opened Uv

  /** One `draw.text` call: the character and the top-left pixel position
      it is drawn at. */
  datatype AtlasGlyph = AtlasGlyph(ch: char, origin: Vec2)

  /** Pixel size of one cell: the image size divided by the cell counts. */
  function CellSize(atlasWidth: int, atlasHeight: int, cols: int, rows: int): (s: Vec2)
    requires cols != 0 && rows != 0
    ensures s.x * cols as real == atlasWidth as real
    ensures s.y * rows as real == atlasHeight as real
  {
    Vec2(atlasWidth as real / cols as real, atlasHeight as real / rows as real)
  }

  /** Draw position of character `i` whose rendered mask is `maskWidth`
      pixels wide. The glyph is centred horizontally in its cell; a box of
      the font's target height is centred vertically and then lifted by
      the vertical offset. */
  function GlyphOrigin(i: nat, maskWidth: nat, cell: Vec2, cols: int, targetHeight: int, vOffset: int): (p: Vec2)
    requires cols != 0
    ensures var c := AtlasCell(i, cols);
            p.x + maskWidth as real / 2.0 == (c.col as real + 0.5) * cell.x
    ensures var c := AtlasCell(i, cols);
            p.y + targetHeight as real / 2.0 + vOffset as real == (c.row as real + 0.5) * cell.y
    ensures var c := AtlasCell(i, cols);
            0.0 <= maskWidth as real <= cell.x ==>
              c.col as real * cell.x <= p.x && p.x + maskWidth as real <= (c.col + 1) as real * cell.x
  {
    var c := AtlasCell(i, cols);
    Vec2(c.col as real * cell.x + (cell.x - maskWidth as real) / 2.0,
         c.row as real * cell.y + (cell.y - targetHeight as real) / 2.0 - vOffset as real)
  }

  /** The drawing loop of the atlas generator. The cell size is computed
      before the loop, so a zero cell count fails even for an empty
      character set. */
  function AtlasLayout(chars: seq<char>, maskWidth: char -> nat, atlasWidth: int, atlasHeight: int,
                       cols: int, rows: int, fontSize: int, vOffset: int): (r: Result<seq<AtlasGlyph>>)
    ensures r.Err? <==> cols == 0 || rows == 0
    ensures r.Err? ==> r.error == ZeroCellCount
    ensures r.Ok? ==> |r.value| == |chars|
    ensures r.Ok? ==> forall i :: 0 <= i < |r.value| ==>
              r.value[i] == AtlasGlyph(chars[i], GlyphOrigin(i, maskWidth(chars[i]),
                                       CellSize(atlasWidth, atlasHeight, cols, rows), cols, fontSize, vOffset))
  {
    if cols == 0 || rows == 0 then Err(ZeroCellCount)
    else
      var cell := CellSize(atlasWidth, atlasHeight, cols, rows);
      Ok(seq(|chars|, i requires 0 <= i < |chars| =>
               AtlasGlyph(chars[i], GlyphOrigin(i, maskWidth(chars[i]), cell, cols, fontSize, vOffset))))
  }

  /** When the grid has a cell for every character, a glyph no wider than
      a cell is drawn horizontally inside the image. */
  lemma {:induction false} AtlasGlyphsInsideImage(chars: seq<char>, maskWidth: char -> nat, atlasWidth: int, atlasHeight: int,
                                                  cols: int, rows: int, fontSize: int, vOffset: int, i: nat)
    requires cols > 0 && rows > 0 && atlasWidth > 0 && atlasHeight > 0
    requires |chars| <= cols * rows && i < |chars|
    requires maskWidth(chars[i]) as real <= atlasWidth as real / cols as real
    ensures var r := AtlasLayout(chars, maskWidth, atlasWidth, atlasHeight, cols, rows, fontSize, vOffset);
            && r.Ok?
            && 0.0 <= r.value[i].origin.x
            && r.value[i].origin.x + maskWidth(chars[i]) as real <= atlasWidth as real
  {
    var r := AtlasLayout(chars, maskWidth, atlasWidth, atlasHeight, cols, rows, fontSize, vOffset);
    var cell := CellSize(atlasWidth, atlasHeight, cols, rows);
    var c := AtlasCell(i, cols);
    AtlasCellInGridIff(i, cols, rows);
    assert 0.0 <= maskWidth(chars[i]) as real <= cell.x;
    var p := GlyphOrigin(i, maskWidth(chars[i]), cell, cols, fontSize, vOffset);
    assert r.value[i].origin == p;
    ColumnInsideImage(c.col, cols, cell.x, atlasWidth as real);
  }

  /** Column `col` of `cols` columns of width `w` lies within an image
      `cols * w` wide. */
  lemma {:induction false} ColumnInsideImage(col: int, cols: int, w: real, width: real)
    requires 0 <= col < cols && w > 0.0 && w * cols as real == width
    ensures 0.0 <= col as real * w
    ensures (col + 1) as real * w <= width
  {
    assert 0.0 <= col as real * w;
    assert 0.0 <= (cols - col - 1) as real * w;
    assert width - (col + 1) as real * w == (cols - col - 1) as real * w;
  }

  // ---------------------------------------------------------------------
  // The atlas and the UV table

  /** A pixel position at the middle of band `a` of cells `size / n`
      wide, as a fraction of `size`, is the middle of the UV band from
      `a / n` to `(a + 1) / n`. */
  lemma BandCentreToUnit(a: real, pos: real, size: real, n: int)
    requires size > 0.0 && n > 0
    requires pos == (a + 0.5) * (size / n as real)
    ensures pos / size == (a / n as real + (a + 1.0) / n as real) / 2.0
  {
  }

  /** The centre of the glyph's box in the atlas, measured as a fraction of
      the image (v counted from the bottom), is the centre of the UV
      rectangle of the cell it is drawn into: horizontally the centre of
      the mask, vertically the centre of the target-height box before the
      offset lifts it. */
  lemma {:induction false} GlyphCentreIsUvCentre(i: nat, maskWidth: nat, atlasWidth: int, atlasHeight: int,
                                                 cols: int, rows: int, targetHeight: int, vOffset: int)
    requires atlasWidth > 0 && atlasHeight > 0 && cols > 0 && rows > 0
    ensures var p := GlyphOrigin(i, maskWidth, CellSize(atlasWidth, atlasHeight, cols, rows), cols, targetHeight, vOffset);
            var q := UvRectIntended(i, cols, rows);
            && (p.x + maskWidth as real / 2.0) / atlasWidth as real == CentreU(q)
            && 1.0 - (p.y + targetHeight as real / 2.0 + vOffset as real) / atlasHeight as real == CentreV(q)
  {
    var cell := CellSize(atlasWidth, atlasHeight, cols, rows);
    var p := GlyphOrigin(i, maskWidth, cell, cols, targetHeight, vOffset);
    var q := UvRectIntended(i, cols, rows);
    var c := AtlasCell(i, cols);
    var col, row := c.col as real, c.row as real;
    assert q == CellRect(c, cols, rows);
    assert q.c0.x == col / cols as real && q.c1.x == (col + 1.0) / cols as real;
    assert q.c0.y == 1.0 - (row + 1.0) / rows as real && q.c3.y == 1.0 - row / rows as real;
    var px := p.x + maskWidth as real / 2.0;
    var py := p.y + targetHeight as real / 2.0 + vOffset as real;
    assert cell.x == atlasWidth as real / cols as real && cell.y == atlasHeight as real / rows as real;
    BandCentreToUnit(col, px, atlasWidth as real, cols);
    BandCentreToUnit(row, py, atlasHeight as real, rows);
  }

  /** On a square grid the recorded UV rectangle is centred on the glyph
      the atlas draws, as `GlyphCentreIsUvCentre` states for the cell the
      glyph is drawn into. */
  lemma {:induction false} SquareGlyphCentreIsUvCentre(i: nat, maskWidth: nat, atlasWidth: int, atlasHeight: int,
                                                       n: int, targetHeight: int, vOffset: int)
    requires atlasWidth > 0 && atlasHeight > 0 && n > 0
    ensures var p := GlyphOrigin(i, maskWidth, CellSize(atlasWidth, atlasHeight, n, n), n, targetHeight, vOffset);
            var q := UvRect(i, n, n);
            && (p.x + maskWidth as real / 2.0) / atlasWidth as real == CentreU(q)
            && 1.0 - (p.y + targetHeight as real / 2.0 + vOffset as real) / atlasHeight as real == CentreV(q)
  {
    UvCellSquareAgrees(i, n);
    assert UvRect(i, n, n) == UvRectIntended(i, n, n);
    GlyphCentreIsUvCentre(i, maskWidth, atlasWidth, atlasHeight, n, n, targetHeight, vOffset);
  }
}

=== FILE: decalnik.dfy ===
/** The generate operator of the add-on: checks, atlas, UV table, widths
    and quad layout, in the order the operator runs them. The imaging
    library's measurement is the parameter `maskWidth`; the scene edits
    that follow the layout (joining, origin, rotation, scale, the view
    offset) are not part of this model. */
module Decalnik {
  import opened Geometry
  import opened Results
  import opened Grid
  import opened Atlas
  import opened Uv
  import opened Text
  import opened Widths
  import opened Layout

  /** The settings the operator reads from the scene. */
  datatype Props = Props(
    atlasWidth: int,
    atlasHeight: int,
    fontPath: string,
    fontSize: int,
    symbolVerticalOffset: int,
    textContent: string,
    characters: string,
    cols: int,
    rows: int)

  /** The bounds the host enforces through the property declarations: the
      atlas has a positive width and height, the font size lies in
      10 .. 200 and the vertical offset in 0 .. 100. The cell counts are
      unconstrained integers. Which sizes the host lists is not modelled. */
  predicate ValidProps(p: Props) {
    && p.atlasWidth > 0 && p.atlasHeight > 0
    && 10 <= p.fontSize <= 200
    && 0 <= p.symbolVerticalOffset <= 100
  }

  const DefaultCharacters: string := "ABCDEFGHIJKLMNOPQRSTUVWXYZ0123456789&-+/.,!? "
  const DefaultCols: int := 8
  const DefaultRows: int := 8

  /** What one run produces: the atlas draw calls, the UV table and the
      quads, before they are joined. */
  datatype Decal = Decal(atlas: seq<AtlasGlyph>, uvs: map<char, Quad>, glyphs: seq<Glyph>)

  /** One press of the generate button. The atlas step opens the font
      before anything else can fail, so an empty font path stops the run
      there; the unit widths of the decal builder are never reached from
      this operator. */
  function Generate(blendSaved: bool, blendPath: string, p: Props, maskWidth: char -> nat, cursor: Vec3): (r: Result<Decal>)
    requires ValidProps(p)
    ensures r == Err(NotSaved) <==> !(blendSaved && blendPath != [])
    ensures blendSaved && blendPath != [] ==> (r == Err(NoText) <==> p.textContent == [])
    ensures r == Err(NoFont) <==> blendSaved && blendPath != [] && p.textContent != [] && p.fontPath == []
    ensures r == Err(ZeroCellCount)
            <==> blendSaved && blendPath != [] && p.textContent != [] && p.fontPath != [] && (p.cols == 0 || p.rows == 0)
    ensures r.Ok? ==>
              && p.fontPath != [] && p.cols != 0 && p.rows != 0
              && r.value.atlas == AtlasLayout(p.characters, maskWidth, p.atlasWidth, p.atlasHeight,
                                              p.cols, p.rows, p.fontSize, p.symbolVerticalOffset).value
              && |r.value.atlas| == |p.characters|
              && (forall c :: c in r.value.uvs <==> c in p.characters)
              && (forall c :: c in r.value.uvs ==> r.value.uvs[c] == UvRect(LastIndex(p.characters, c), p.cols, p.rows))
              && r.value.glyphs == LayoutText(p.textContent, cursor, r.value.uvs,
                                              CharWidths(p.characters, p.fontPath, maskWidth, p.fontSize))
              && r.value.glyphs != []
              && AllOnTheirLines(r.value.glyphs, cursor, |Lines(p.textContent)|, r.value.uvs)
  {
    if !(blendSaved && blendPath != []) then Err(NotSaved)
    else if p.textContent == [] then Err(NoText)
    else if p.fontPath == [] then Err(NoFont)
    else
      var atlas :- AtlasLayout(p.characters, maskWidth, p.atlasWidth, p.atlasHeight,
                               p.cols, p.rows, p.fontSize, p.symbolVerticalOffset);
      // the atlas step has ruled out a zero cell count, so the UV loop succeeds
      var uvs := UvTable(p.characters, p.cols, p.rows).value;
      var widths := CharWidths(p.characters, p.fontPath, maskWidth, p.fontSize);
      var glyphs := LayoutText(p.textContent, cursor, uvs, widths);
      if glyphs == [] then Err(NoGlyphs) else Ok(Decal(atlas, uvs, glyphs))
  }

  /** The run gets as far as joining and then fails exactly when no line of
      the text has a character of the set: the text is not empty, but
      nothing was placed. */
  lemma GenerateNoGlyphsIff(blendSaved: bool, blendPath: string, p: Props, maskWidth: char -> nat, cursor: Vec3)
    requires ValidProps(p)
    requires blendSaved && blendPath != [] && p.textContent != [] && p.fontPath != []
    requires p.cols != 0 && p.rows != 0
    ensures var lines := Lines(p.textContent);
            Generate(blendSaved, blendPath, p, maskWidth, cursor) == Err(NoGlyphs)
            <==> forall k :: 0 <= k < |lines| ==> Keys(lines[k], UvTable(p.characters, p.cols, p.rows).value) == []
  {
    var uvs := UvTable(p.characters, p.cols, p.rows).value;
    var widths := CharWidths(p.characters, p.fontPath, maskWidth, p.fontSize);
    LayoutTextEmptyIff(p.textContent, cursor, uvs, widths);
  }

  /** With the default 8 x 8 grid and the default 45 characters, every
      character has a cell inside the atlas, its UV rectangle lies in the
      unit square, and the UV cell is the cell it was drawn in. */
  lemma {:induction false} DefaultsAreConsistent(i: nat)
    requires i < |DefaultCharacters|
    ensures InGrid(AtlasCell(i, DefaultCols), DefaultCols, DefaultRows)
    ensures UvCell(i, DefaultCols, DefaultRows) == AtlasCell(i, DefaultCols)
    ensures InUnitSquare(UvRect(i, DefaultCols, DefaultRows))
  {
    assert |DefaultCharacters| == 45;
    AtlasCellInGridIff(i, DefaultCols, DefaultRows);
    UvRectInUnitSquareIff(i, DefaultCols, DefaultRows);
  }
}

=== FILE: geometry.dfy ===
/** Exact points and quads. Coordinates are `real`: the source divides with
    Python's true division, which this model treats as exact. */
module Geometry {

  /** A 2D point: pixel coordinates in the atlas, or (u, v) texture coordinates. */
  datatype Vec2 = Vec2(x: real, y: real)

  /** A point in the scene (the 3D cursor, a quad's centre). */
  datatype Vec3 = Vec3(x: real, y: real, z: real)

  /** Four corners in loop order. A UV entry of the source is a list of four
      (u, v) pairs; `c0 .. c3` are its items 0 .. 3. */
  datatype Quad = Quad(c0: Vec2, c1: Vec2, c2: Vec2, c3: Vec2)

  /** An axis-aligned rectangle whose corners run (min,min), (max,min),
      (max,max), (min,max). */
  predicate IsAxisRect(q: Quad) {
    && q.c0.x == q.c3.x && q.c1.x == q.c2.x
    && q.c0.y == q.c1.y && q.c2.y == q.c3.y
    && q.c0.x <= q.c1.x && q.c0.y <= q.c3.y
  }

  predicate InUnitInterval(r: real) {
    0.0 <= r <= 1.0
  }

  /** Every corner lies inside the unit square [0,1] x [0,1]. */
  predicate InUnitSquare(q: Quad) {
    && InUnitInterval(q.c0.x) && InUnitInterval(q.c0.y)
    && InUnitInterval(q.c1.x) && InUnitInterval(q.c1.y)
    && InUnitInterval(q.c2.x) && InUnitInterval(q.c2.y)
    && InUnitInterval(q.c3.x) && InUnitInterval(q.c3.y)
  }

  /** The point lies strictly inside the rectangle spanned by `q`. */
  predicate Interior(q: Quad, p: Vec2) {
    q.c0.x < p.x < q.c1.x && q.c0.y < p.y < q.c3.y
  }

  /** The point lies in the closed rectangle spanned by `q`. */
  predicate Contains(q: Quad, p: Vec2) {
    q.c0.x <= p.x <= q.c1.x && q.c0.y <= p.y <= q.c3.y
  }
}

=== FILE: grid.dfy ===
/** Where character number `i` of the configured set sits in the atlas grid.
    The atlas is drawn with one formula for the row, and the UV rectangles
    are computed with another; this module holds both. */
module Grid {
  import opened PyArith

  /** A grid cell: column from the left, row from the top of the image. */
  datatype Cell = Cell(col: int, row: int)

  /** Index of a cell when cells are numbered row by row. */
  function CellIndex(c: Cell, cols: int): int {
    c.row * cols + c.col
  }

  predicate InGrid(c: Cell, cols: int, rows: int) {
    0 <= c.col < cols && 0 <= c.row < rows
  }

  /** The cell the atlas draws character `i` into: column `i % cols`,
      row `i // cols`. Numbering is row-major, so the cell's index is `i`
      back again, and on a grid with positive width the column is in range. */
  function AtlasCell(i: nat, cols: int): (c: Cell)
    requires cols != 0
    ensures CellIndex(c, cols) == i
    ensures cols > 0 ==> 0 <= c.col < cols && 0 <= c.row
  {
    Cell(FloorMod(i, cols), FloorDiv(i, cols))
  }

  /** The cell the UV computation assumes for character `i`: column
      `i % cols` as in the atlas, but row `i // rows`. */
  function UvCell(i: nat, cols: int, rows: int): (c: Cell)
    requires cols != 0 && rows != 0
    ensures c.col == AtlasCell(i, cols).col
    ensures rows > 0 ==> 0 <= c.row && rows * c.row <= i < rows * c.row + rows
  {
    Cell(FloorMod(i, cols), FloorDiv(i, rows))
  }

  /** Row-major numbering is a bijection: every cell with an in-range column
      is the atlas cell of its own index. */
  lemma {:induction false} CellIndexRoundTrip(c: Cell, cols: int)
    requires cols > 0 && 0 <= c.col < cols && 0 <= c.row
    ensures CellIndex(c, cols) >= 0
    ensures AtlasCell(CellIndex(c, cols), cols) == c
  {
    var i := CellIndex(c, cols);
    if c.row > 0 {
      MulAtLeast(cols, c.row);
    }
    assert i == cols * c.row + c.col;
    FloorDivUnique(i, cols, c.row, c.col);
  }

  /** When `i` falls in row `row` of rows `n` wide, that row is one of the
      first `m` exactly when `i` is below `n * m`. */
  lemma {:induction false} RowBelowIff(i: int, n: int, row: int, m: int)
    requires n > 0 && n * row <= i < n * row + n
    ensures row < m <==> i < n * m
  {
    if row < m {
      MulAtLeast(n, m - row);
      assert n * m == n * row + n * (m - row);
    } else if row > m {
      MulAtLeast(n, row - m);
      assert n * row == n * m + n * (row - m);
    }
  }

  /** Character `i` is drawn inside the image exactly when the grid has more
      than `i` cells. */
  lemma {:induction false} AtlasCellInGridIff(i: nat, cols: int, rows: int)
    requires cols > 0 && rows > 0
    ensures InGrid(AtlasCell(i, cols), cols, rows) <==> i < cols * rows
  {
    var c := AtlasCell(i, cols);
    assert i == cols * c.row + c.col;
    RowBelowIff(i, cols, c.row, rows);
  }

  /** On a square grid the two row formulas agree for every index. */
  lemma UvCellSquareAgrees(i: nat, n: int)
    requires n != 0
    ensures UvCell(i, n, n) == AtlasCell(i, n)
  {
  }

  /** The UV cell is the atlas cell for every in-range index if and only if
      the grid is square. On a non-square grid the index `min(cols, rows)`
      already lands in different rows. */
  lemma {:induction false} UvAgreesIffSquare(cols: int, rows: int)
    requires cols > 0 && rows > 0
    ensures (forall i: nat :: i < cols * rows ==> UvCell(i, cols, rows) == AtlasCell(i, cols))
            <==> cols == rows
  {
    if cols < rows {
      MulAtLeast(cols, rows);
      assert cols < cols * rows by { assert cols * rows - cols == cols * (rows - 1); MulAtLeast(cols, rows - 1); }
      FloorDivUnique(cols, cols, 1, 0);
      FloorDivUnique(cols, rows, 0, cols);
      assert UvCell(cols, cols, rows).row != AtlasCell(cols, cols).row;
    } else if cols > rows {
      assert rows < cols * rows by { assert cols * rows - rows == rows * (cols - 1); MulAtLeast(rows, cols - 1); }
      FloorDivUnique(rows, rows, 1, 0);
      FloorDivUnique(rows, cols, 0, rows);
      assert UvCell(rows, cols, rows).row != AtlasCell(rows, cols).row;
    }
  }

  /** A concrete case: on a 4-column, 2-row grid, character 4 is drawn in
      row 1 of the atlas but textured from row 2, a row the grid does not
      have. */
  lemma UvRowDiffersExample()
    ensures AtlasCell(4, 4) == Cell(0, 1)
    ensures UvCell(4, 4, 2) == Cell(0, 2)
    ensures !InGrid(UvCell(4, 4, 2), 4, 2)
  {
    assert AtlasCell(4, 4) == Cell(0, 1);
    assert UvCell(4, 4, 2) == Cell(0, 2);
  }
}

=== FILE: layout.dfy ===
/** Placement of the glyph quads of the decal: each line is centred on the
    3D cursor, glyphs follow each other left to right, and each further
    line sits one unit lower. */
module Layout {
  import opened Geometry
  import opened Text
  import opened Uv

  /** One textured quad: the table key it shows, the line it belongs to,
      its centre, its width (its height is always 1), and its UVs. */
  datatype Glyph = Glyph(key: char, line: nat, centre: Vec3, width: real, uv: Quad)

  function Left(g: Glyph): real {
    g.centre.x - g.width / 2.0
  }

  function Right(g: Glyph): real {
    g.centre.x + g.width / 2.0
  }

  /** Every character with a UV rectangle has a width. */
  predicate WidthsCover(uvs: map<char, Quad>, widths: map<char, real>) {
    forall k :: k in uvs ==> k in widths
  }

  /** A character is drawn when its upper-case form has a UV rectangle. */
  predicate Placed(c: char, uvs: map<char, Quad>) {
    Upper(c) in uvs
  }

  /** The upper-cased characters of a line that get a quad, in order. */
  function Keys(line: string, uvs: map<char, Quad>): (ks: seq<char>)
    ensures |ks| <= |line|
    ensures forall k :: k in ks ==> k in uvs
  {
    if |line| == 0 then []
    else (if Placed(line[0], uvs) then [Upper(line[0])] else []) + Keys(line[1..], uvs)
  }

  /** Lookup is by upper-case form, so a lower-case letter in the
      character set is never drawn, whatever the text. */
  lemma {:induction false} LowercaseKeysNeverDrawn(line: string, uvs: map<char, Quad>)
    ensures forall j :: 0 <= j < |Keys(line, uvs)| ==> !('a' <= Keys(line, uvs)[j] <= 'z')
  {
    if |line| > 0 {
      LowercaseKeysNeverDrawn(line[1..], uvs);
    }
  }

  /** Sum of the widths of a run of keys. */
  function RunWidth(ks: seq<char>, widths: map<char, real>): (w: real)
    requires forall k :: k in ks ==> k in widths
    ensures |ks| == 0 ==> w == 0.0
    ensures (forall k :: k in ks ==> 0.0 <= widths[k]) ==> 0.0 <= w
  {
    if |ks| == 0 then 0.0 else widths[ks[0]] + RunWidth(ks[1..], widths)
  }

  /** Total width of a line: the widths of its drawn characters. A line
      with no drawn character is 0 wide, and with non-negative widths no
      line is narrower than 0. How the width splits over the parts of a
      line is `LineWidthAppend`. */
  function LineWidth(line: string, uvs: map<char, Quad>, widths: map<char, real>): (w: real)
    requires WidthsCover(uvs, widths)
    ensures Keys(line, uvs) == [] ==> w == 0.0
    ensures (forall c :: c in widths ==> 0.0 <= widths[c]) ==> 0.0 <= w
  {
    RunWidth(Keys(line, uvs), widths)
  }

  /** The quad for `key` with its left edge at `pen`: centred at
      `pen + w / 2` on the current line, UVs stretched by the width. */
  function MakeGlyph(key: char, pen: real, k: nat, cursor: Vec3,
                     uvs: map<char, Quad>, widths: map<char, real>): (g: Glyph)
    requires key in uvs && key in widths
    ensures Left(g) == pen && Right(g) == pen + widths[key]
    ensures g.key == key && g.line == k && g.width == widths[key]
    ensures g.centre.y == cursor.y && g.centre.z == cursor.z
    ensures g.uv == ScaleU(uvs[key], widths[key])
  {
    var w := widths[key];
    Glyph(key, k, Vec3(pen + w * 0.5, cursor.y, cursor.z), w, ScaleU(uvs[key], w))
  }

  /** The inner loop over the characters of one line, starting with the
      pen at `pen`: a drawn character gets a quad and moves the pen by its
      width, any other character is passed over. */
  function PlaceChars(line: string, pen: real, k: nat, cursor: Vec3,
                      uvs: map<char, Quad>, widths: map<char, real>): (gs: seq<Glyph>)
    requires WidthsCover(uvs, widths)
    ensures |gs| == |Keys(line, uvs)|
    ensures forall j :: 0 <= j < |gs| ==>
              gs[j].key in uvs && gs[j].line == k && gs[j].centre.y == cursor.y && gs[j].centre.z == cursor.z
  {
    if |line| == 0 then []
    else
      var key := Upper(line[0]);
      if key in uvs then
        [MakeGlyph(key, pen, k, cursor, uvs, widths)] + PlaceChars(line[1..], pen + widths[key], k, cursor, uvs, widths)
      else
        PlaceChars(line[1..], pen, k, cursor, uvs, widths)
  }

  /** Quads for a run of keys, the first with its left edge at `pen`, each
      next one starting where the previous one ends. */
  function PlaceKeys(ks: seq<char>, pen: real, k: nat, cursor: Vec3,
                     uvs: map<char, Quad>, widths: map<char, real>): (gs: seq<Glyph>)
    requires forall c :: c in ks ==> c in uvs && c in widths
    ensures |gs| == |ks|
  {
    if |ks| == 0 then []
    else [MakeGlyph(ks[0], pen, k, cursor, uvs, widths)] + PlaceKeys(ks[1..], pen + widths[ks[0]], k, cursor, uvs, widths)
  }

  /** Line `k`, laid out with the cursor at `cursor`: the pen starts half
      the line's width left of the cursor. There is one quad per drawn
      character, showing that character's key, on line `k` at the cursor's
      height and depth. Where the quads sit along the line is
      `LineQuadAt`, `LineQuadsAbut` and `LineCentred`. */
  function LineLayout(line: string, k: nat, cursor: Vec3,
                      uvs: map<char, Quad>, widths: map<char, real>): (gs: seq<Glyph>)
    requires WidthsCover(uvs, widths)
    ensures |gs| == |Keys(line, uvs)|
    ensures forall j :: 0 <= j < |gs| ==>
              gs[j].key in uvs && gs[j].line == k && gs[j].centre.y == cursor.y && gs[j].centre.z == cursor.z
  {
    PlaceChars(line, cursor.x - LineWidth(line, uvs, widths) / 2.0, k, cursor, uvs, widths)
  }

  /** The outer loop over lines. The cursor moves one unit down after
      each line, so line `k` is laid out with the cursor `k` units below
      where it started. */
  function LineBlocks(lines: seq<string>, cursor: Vec3,
                      uvs: map<char, Quad>, widths: map<char, real>): (blocks: seq<seq<Glyph>>)
    requires WidthsCover(uvs, widths)
    ensures |blocks| == |lines|
    ensures forall k :: 0 <= k < |blocks| ==> |blocks[k]| == |Keys(lines[k], uvs)|
    ensures forall k :: 0 <= k < |blocks| ==> AllOnTheirLines(blocks[k], cursor, |lines|, uvs)
    ensures forall k, j :: 0 <= k < |blocks| && 0 <= j < |blocks[k]| ==> blocks[k][j].line == k
  {
    seq(|lines|, k requires 0 <= k < |lines| => LineLayout(lines[k], k, cursor.(y := cursor.y - k as real), uvs, widths))
  }

  /** The blocks one after the other: what the loops append to the list of
      created objects. An element is in the result exactly when it is in
      one of the blocks, and there are as many elements as the blocks hold
      together; where each block lands is `FlattenBlockAt`. */
  function Flatten<T>(blocks: seq<seq<T>>): (r: seq<T>)
    ensures |r| == TotalSize(blocks)
    ensures forall k, j :: 0 <= k < |blocks| && 0 <= j < |blocks[k]| ==> blocks[k][j] in r
    ensures forall i :: 0 <= i < |r| ==> exists k :: 0 <= k < |blocks| && r[i] in blocks[k]
  {
    if |blocks| == 0 then []
    else
      var rest := Flatten(blocks[1..]);
      assert forall k :: 1 <= k < |blocks| ==> blocks[1..][k - 1] == blocks[k];
      blocks[0] + rest
  }

  /** How many elements the blocks hold together. */
  function TotalSize<T>(blocks: seq<seq<T>>): nat {
    if |blocks| == 0 then 0 else |blocks[0]| + TotalSize(blocks[1..])
  }

  /** How many characters of the lines are drawn. */
  function DrawnCount(lines: seq<string>, uvs: map<char, Quad>): nat {
    if |lines| == 0 then 0 else |Keys(lines[0], uvs)| + DrawnCount(lines[1..], uvs)
  }

  /** The quad shows a table key and sits on line `g.line` of `n` lines,
      that many units below the cursor, at the cursor's depth. */
  predicate OnItsLine(g: Glyph, cursor: Vec3, n: nat, uvs: map<char, Quad>) {
    g.key in uvs && g.line < n && g.centre.y == cursor.y - g.line as real && g.centre.z == cursor.z
  }

  predicate AllOnTheirLines(gs: seq<Glyph>, cursor: Vec3, n: nat, uvs: map<char, Quad>) {
    forall j :: 0 <= j < |gs| ==> OnItsLine(gs[j], cursor, n, uvs)
  }

  /** All quads for a text, before they are joined into one mesh: line `k`
      of the text sits `k` units below the cursor. */
  function LayoutText(text: string, cursor: Vec3,
                      uvs: map<char, Quad>, widths: map<char, real>): (gs: seq<Glyph>)
    requires WidthsCover(uvs, widths)
    ensures AllOnTheirLines(gs, cursor, |Lines(text)|, uvs)
  {
    var lines := Lines(text);
    var blocks: seq<seq<Glyph>> := LineBlocks(lines, cursor, uvs, widths);
    FlattenOnTheirLines(blocks, cursor, |lines|, uvs);
    Flatten(blocks)
  }

  lemma {:induction false} FlattenOnTheirLines(blocks: seq<seq<Glyph>>, cursor: Vec3, n: nat, uvs: map<char, Quad>)
    requires forall k :: 0 <= k < |blocks| ==> AllOnTheirLines(blocks[k], cursor, n, uvs)
    ensures AllOnTheirLines(Flatten(blocks), cursor, n, uvs)
  {
    if |blocks| > 0 {
      var tail: seq<seq<Glyph>> := blocks[1..];
      assert forall k :: 0 <= k < |tail| ==> tail[k] == blocks[k + 1];
      FlattenOnTheirLines(tail, cursor, n, uvs);
      var gs := Flatten(blocks);
      var head := blocks[0];
      var rest := Flatten(tail);
      assert gs == head + rest;
      assert AllOnTheirLines(head, cursor, n, uvs);
      forall j | 0 <= j < |gs|
        ensures OnItsLine(gs[j], cursor, n, uvs)
      {
        if j < |head| {
          assert gs[j] == head[j];
        } else {
          assert gs[j] == rest[j - |head|];
        }
      }
    }
  }

  // ---------------------------------------------------------------------
  // Widths of runs and lines

  lemma {:induction false} KeysAppend(a: string, b: string, uvs: map<char, Quad>)
    ensures Keys(a + b, uvs) == Keys(a, uvs) + Keys(b, uvs)
  {
    if |a| > 0 {
      assert (a + b)[1..] == a[1..] + b;
      KeysAppend(a[1..], b, uvs);
    } else {
      assert a + b == b;
    }
  }

  lemma {:induction false} RunWidthAppend(a: seq<char>, b: seq<char>, widths: map<char, real>)
    requires forall k :: k in a + b ==> k in widths
    ensures RunWidth(a + b, widths) == RunWidth(a, widths) + RunWidth(b, widths)
  {
    if |a| > 0 {
      assert (a + b)[1..] == a[1..] + b;
      RunWidthAppend(a[1..], b, widths);
    } else {
      assert a + b == b;
    }
  }

  /** The width of two pieces of a line is the sum of their widths. */
  lemma {:induction false} LineWidthAppend(a: string, b: string, uvs: map<char, Quad>, widths: map<char, real>)
    requires WidthsCover(uvs, widths)
    ensures LineWidth(a + b, uvs, widths) == LineWidth(a, uvs, widths) + LineWidth(b, uvs, widths)
  {
    KeysAppend(a, b, uvs);
    RunWidthAppend(Keys(a, uvs), Keys(b, uvs), widths);
  }

  /** A run is as wide as the run without its last key plus that key. */
  lemma {:induction false} RunWidthLast(ks: seq<char>, widths: map<char, real>)
    requires forall k :: k in ks ==> k in widths
    requires |ks| > 0
    ensures RunWidth(ks, widths) == RunWidth(ks[..|ks| - 1], widths) + widths[ks[|ks| - 1]]
  {
    var n := |ks| - 1;
    assert ks[..n] + [ks[n]] == ks;
    RunWidthAppend(ks[..n], [ks[n]], widths);
    assert RunWidth([ks[n]], widths) == widths[ks[n]];
  }

  /** With unit widths a line is as wide as it has drawn characters. */
  lemma {:induction false} RunWidthUnit(ks: seq<char>, widths: map<char, real>)
    requires forall k :: k in ks ==> k in widths && widths[k] == 1.0
    ensures RunWidth(ks, widths) == |ks| as real
  {
    if |ks| > 0 {
      RunWidthUnit(ks[1..], widths);
    }
  }

  // ---------------------------------------------------------------------
  // Placement within a line

  /** Skipping characters in the loop is the same as placing the drawn
      keys one after the other. */
  lemma {:induction false} PlaceCharsIsPlaceKeys(line: string, pen: real, k: nat, cursor: Vec3,
                                                 uvs: map<char, Quad>, widths: map<char, real>)
    requires WidthsCover(uvs, widths)
    ensures PlaceChars(line, pen, k, cursor, uvs, widths) == PlaceKeys(Keys(line, uvs), pen, k, cursor, uvs, widths)
  {
    if |line| > 0 {
      var key := Upper(line[0]);
      if key in uvs {
        PlaceCharsIsPlaceKeys(line[1..], pen + widths[key], k, cursor, uvs, widths);
        var ks := Keys(line, uvs);
        assert ks[0] == key && ks[1..] == Keys(line[1..], uvs);
      } else {
        PlaceCharsIsPlaceKeys(line[1..], pen, k, cursor, uvs, widths);
        assert Keys(line, uvs) == Keys(line[1..], uvs);
      }
    }
  }

  /** Closed form of the placement: quad `j` shows key `j`, and its left
      edge is the start pen plus the widths of the keys before it. */
  lemma {:induction false} PlaceKeysAt(ks: seq<char>, pen: real, k: nat, cursor: Vec3,
                                       uvs: map<char, Quad>, widths: map<char, real>, j: nat)
    requires forall c :: c in ks ==> c in uvs && c in widths
    requires j < |ks|
    ensures PlaceKeys(ks, pen, k, cursor, uvs, widths)[j]
            == MakeGlyph(ks[j], pen + RunWidth(ks[..j], widths), k, cursor, uvs, widths)
  {
    if j == 0 {
      assert ks[..0] == [];
    } else {
      var w := widths[ks[0]];
      PlaceKeysAt(ks[1..], pen + w, k, cursor, uvs, widths, j - 1);
      assert ks[..j][1..] == ks[1..][..j - 1];
      assert RunWidth(ks[..j], widths) == w + RunWidth(ks[1..][..j - 1], widths);
    }
  }

  /** The left edge of quad `j` of a line: the line's start plus the widths
      of the drawn characters before it. */
  lemma {:induction false} LineQuadAt(line: string, k: nat, cursor: Vec3,
                                      uvs: map<char, Quad>, widths: map<char, real>, j: nat)
    requires WidthsCover(uvs, widths)
    requires j < |Keys(line, uvs)|
    ensures var ks := Keys(line, uvs);
            var gs := LineLayout(line, k, cursor, uvs, widths);
            |gs| == |ks| &&
            gs[j] == MakeGlyph(ks[j], cursor.x - LineWidth(line, uvs, widths) / 2.0 + RunWidth(ks[..j], widths),
                               k, cursor, uvs, widths)
  {
    var ks := Keys(line, uvs);
    var pen := cursor.x - LineWidth(line, uvs, widths) / 2.0;
    LineLayoutIsPlaceKeys(line, k, cursor, uvs, widths);
    PlaceKeysAt(ks, pen, k, cursor, uvs, widths, j);
  }

  /** A laid-out line is its drawn keys placed from the line's start pen. */
  lemma LineLayoutIsPlaceKeys(line: string, k: nat, cursor: Vec3,
                              uvs: map<char, Quad>, widths: map<char, real>)
    requires WidthsCover(uvs, widths)
    ensures LineLayout(line, k, cursor, uvs, widths)
            == PlaceKeys(Keys(line, uvs), cursor.x - LineWidth(line, uvs, widths) / 2.0, k, cursor, uvs, widths)
  {
    PlaceCharsIsPlaceKeys(line, cursor.x - LineWidth(line, uvs, widths) / 2.0, k, cursor, uvs, widths);
  }

  /** A character without a UV rectangle contributes no key. */
  lemma {:induction false} KeysSkipUnplaced(a: string, c: char, b: string, uvs: map<char, Quad>)
    requires !Placed(c, uvs)
    ensures Keys(a + [c] + b, uvs) == Keys(a + b, uvs)
  {
    KeysAppend(a + [c], b, uvs);
    KeysAppend(a, [c], uvs);
    KeysAppend(a, b, uvs);
    assert Keys([c], uvs) == [] by { assert [c][1..] == []; }
  }

  /** A character without a UV rectangle adds no width and no quad: the
      line lays out exactly as if it were not there. */
  lemma {:induction false} UnplacedCharIgnored(a: string, c: char, b: string, k: nat, cursor: Vec3,
                                               uvs: map<char, Quad>, widths: map<char, real>)
    requires WidthsCover(uvs, widths)
    requires !Placed(c, uvs)
    ensures LineWidth(a + [c] + b, uvs, widths) == LineWidth(a + b, uvs, widths)
    ensures LineLayout(a + [c] + b, k, cursor, uvs, widths) == LineLayout(a + b, k, cursor, uvs, widths)
  {
    var ks := Keys(a + b, uvs);
    KeysSkipUnplaced(a, c, b, uvs);
    var pen := cursor.x - LineWidth(a + b, uvs, widths) / 2.0;
    assert LineLayout(a + [c] + b, k, cursor, uvs, widths) == PlaceKeys(ks, pen, k, cursor, uvs, widths) by {
      PlaceCharsIsPlaceKeys(a + [c] + b, pen, k, cursor, uvs, widths);
    }
    assert LineLayout(a + b, k, cursor, uvs, widths) == PlaceKeys(ks, pen, k, cursor, uvs, widths) by {
      PlaceCharsIsPlaceKeys(a + b, pen, k, cursor, uvs, widths);
    }
  }

  /** A character whose upper-case form has a UV rectangle contributes its
      upper-case form as a key, in place. */
  lemma {:induction false} KeysPlacedChar(a: string, c: char, b: string, uvs: map<char, Quad>)
    requires Placed(c, uvs)
    ensures Keys(a + [c] + b, uvs) == Keys(a, uvs) + [Upper(c)] + Keys(b, uvs)
  {
    KeysAppend(a + [c], b, uvs);
    KeysAppend(a, [c], uvs);
    assert Keys([c], uvs) == [Upper(c)] by { assert [c][1..] == []; }
  }

  /** A drawn character adds the width of its upper-case form to the line. */
  lemma {:induction false} PlacedCharWidens(a: string, c: char, b: string,
                                            uvs: map<char, Quad>, widths: map<char, real>)
    requires WidthsCover(uvs, widths)
    requires Placed(c, uvs)
    ensures LineWidth(a + [c] + b, uvs, widths) == LineWidth(a + b, uvs, widths) + widths[Upper(c)]
  {
    var ka, kb := Keys(a, uvs), Keys(b, uvs);
    KeysPlacedChar(a, c, b, uvs);
    KeysAppend(a, b, uvs);
    RunWidthAppend(ka + [Upper(c)], kb, widths);
    RunWidthAppend(ka, [Upper(c)], widths);
    RunWidthAppend(ka, kb, widths);
    assert RunWidth([Upper(c)], widths) == widths[Upper(c)] by {
      assert [Upper(c)][1..] == [];
    }
  }

  /** Each quad of a line starts where the previous one ends: no gap and
      no overlap. */
  lemma {:induction false} LineQuadsAbut(line: string, k: nat, cursor: Vec3,
                                         uvs: map<char, Quad>, widths: map<char, real>)
    requires WidthsCover(uvs, widths)
    ensures var gs := LineLayout(line, k, cursor, uvs, widths);
            forall j :: 0 <= j < |gs| - 1 ==> Right(gs[j]) == Left(gs[j + 1])
  {
    var gs := LineLayout(line, k, cursor, uvs, widths);
    forall j | 0 <= j < |gs| - 1
      ensures Right(gs[j]) == Left(gs[j + 1])
    {
      QuadAbutsNext(line, k, cursor, uvs, widths, j);
    }
  }

  /** Quad `j + 1` starts where quad `j` ends. */
  lemma {:induction false} QuadAbutsNext(line: string, k: nat, cursor: Vec3,
                                         uvs: map<char, Quad>, widths: map<char, real>, j: nat)
    requires WidthsCover(uvs, widths)
    requires j + 1 < |Keys(line, uvs)|
    ensures var gs := LineLayout(line, k, cursor, uvs, widths);
            Right(gs[j]) == Left(gs[j + 1])
  {
    var ks := Keys(line, uvs);
    LineQuadAt(line, k, cursor, uvs, widths, j);
    LineQuadAt(line, k, cursor, uvs, widths, j + 1);
    assert ks[..j + 1] == ks[..j] + [ks[j]];
    RunWidthAppend(ks[..j], [ks[j]], widths);
    assert RunWidth([ks[j]], widths) == widths[ks[j]];
  }

  /** The first quad of a line starts half the line's width left of the
      cursor. */
  lemma {:induction false} LineLeftEdge(line: string, k: nat, cursor: Vec3,
                                        uvs: map<char, Quad>, widths: map<char, real>)
    requires WidthsCover(uvs, widths)
    requires |Keys(line, uvs)| > 0
    ensures var gs := LineLayout(line, k, cursor, uvs, widths);
            |gs| > 0 && Left(gs[0]) == cursor.x - LineWidth(line, uvs, widths) / 2.0
  {
    LineQuadAt(line, k, cursor, uvs, widths, 0);
    assert Keys(line, uvs)[..0] == [];
  }

  /** The last quad of a line ends half the line's width right of the
      cursor. */
  lemma {:induction false} LineRightEdge(line: string, k: nat, cursor: Vec3,
                                         uvs: map<char, Quad>, widths: map<char, real>)
    requires WidthsCover(uvs, widths)
    requires |Keys(line, uvs)| > 0
    ensures var gs := LineLayout(line, k, cursor, uvs, widths);
            |gs| > 0 && Right(gs[|gs| - 1]) == cursor.x + LineWidth(line, uvs, widths) / 2.0
  {
    var ks := Keys(line, uvs);
    var n := |ks| - 1;
    LineQuadAt(line, k, cursor, uvs, widths, n);
    RunWidthLast(ks, widths);
  }

  /** A line spans exactly its total width, from half of it left of the
      cursor to half of it right of the cursor, so its midpoint is the
      cursor's x. */
  lemma {:induction false} LineCentred(line: string, k: nat, cursor: Vec3,
                                       uvs: map<char, Quad>, widths: map<char, real>)
    requires WidthsCover(uvs, widths)
    ensures var gs := LineLayout(line, k, cursor, uvs, widths);
            var total := LineWidth(line, uvs, widths);
            |gs| > 0 ==>
              && Left(gs[0]) == cursor.x - total / 2.0
              && Right(gs[|gs| - 1]) == cursor.x + total / 2.0
              && (Left(gs[0]) + Right(gs[|gs| - 1])) / 2.0 == cursor.x
  {
    var gs := LineLayout(line, k, cursor, uvs, widths);
    if |gs| > 0 {
      LineQuadAt(line, k, cursor, uvs, widths, 0);
      LineLeftEdge(line, k, cursor, uvs, widths);
      LineRightEdge(line, k, cursor, uvs, widths);
    }
  }

  /** When every width is one unit (no font path), each quad is one unit
      wide, keeps its UV rectangle unchanged, and quad `j` of a line of `n`
      quads is centred at `cursor.x - n / 2 + j + 1 / 2`. */
  lemma {:induction false} UnitWidthLine(line: string, k: nat, cursor: Vec3,
                                         uvs: map<char, Quad>, widths: map<char, real>)
    requires WidthsCover(uvs, widths)
    requires forall c :: c in widths ==> widths[c] == 1.0
    ensures var gs := LineLayout(line, k, cursor, uvs, widths);
            forall j :: 0 <= j < |gs| ==>
              && gs[j].width == 1.0
              && gs[j].uv == uvs[gs[j].key]
              && gs[j].centre.x == cursor.x - |gs| as real / 2.0 + j as real + 0.5
  {
    var gs := LineLayout(line, k, cursor, uvs, widths);
    forall j | 0 <= j < |gs|
      ensures gs[j].width == 1.0
      ensures gs[j].uv == uvs[gs[j].key]
      ensures gs[j].centre.x == cursor.x - |gs| as real / 2.0 + j as real + 0.5
    {
      UnitWidthQuad(line, k, cursor, uvs, widths, j);
    }
  }

  /** Quad `j` of a line laid out with unit widths. */
  lemma {:induction false} UnitWidthQuad(line: string, k: nat, cursor: Vec3,
                                         uvs: map<char, Quad>, widths: map<char, real>, j: nat)
    requires WidthsCover(uvs, widths)
    requires forall c :: c in widths ==> widths[c] == 1.0
    requires j < |Keys(line, uvs)|
    ensures var gs := LineLayout(line, k, cursor, uvs, widths);
            && gs[j].width == 1.0
            && gs[j].uv == uvs[gs[j].key]
            && gs[j].centre.x == cursor.x - |gs| as real / 2.0 + j as real + 0.5
  {
    var ks := Keys(line, uvs);
    RunWidthUnit(ks, widths);
    LineQuadAt(line, k, cursor, uvs, widths, j);
    RunWidthUnit(ks[..j], widths);
  }

  // ---------------------------------------------------------------------
  // Several lines

  lemma {:induction false} FlattenAppend<T>(a: seq<seq<T>>, b: seq<seq<T>>)
    ensures Flatten(a + b) == Flatten(a) + Flatten(b)
  {
    if |a| == 0 {
      assert a + b == b;
    } else {
      assert (a + b)[0] == a[0];
      assert (a + b)[1..] == a[1..] + b;
      FlattenAppend(a[1..], b);
    }
  }

  /** The flattening ends with the last block, after the flattening of
      the blocks before it. */
  lemma {:induction false} FlattenLast<T>(blocks: seq<seq<T>>)
    requires |blocks| > 0
    ensures Flatten(blocks) == Flatten(blocks[..|blocks| - 1]) + blocks[|blocks| - 1]
  {
    var n := |blocks| - 1;
    assert blocks == blocks[..n] + [blocks[n]];
    FlattenAppend(blocks[..n], [blocks[n]]);
    assert Flatten([blocks[n]]) == blocks[n] by {
      assert [blocks[n]][1..] == [];
    }
  }

  /** The flattening is empty exactly when every block is. */
  lemma {:induction false} FlattenEmptyIff<T>(blocks: seq<seq<T>>)
    ensures Flatten(blocks) == [] <==> forall k :: 0 <= k < |blocks| ==> blocks[k] == []
  {
    if |blocks| > 0 {
      FlattenEmptyIff(blocks[1..]);
      assert forall k :: 1 <= k < |blocks| ==> blocks[1..][k - 1] == blocks[k];
    }
  }

  /** Flattening a leading block puts its elements first. */
  lemma {:induction false} FlattenCons<T>(block: seq<T>, after: seq<seq<T>>)
    ensures Flatten([block] + after) == block + Flatten(after)
  {
    assert ([block] + after)[0] == block;
    assert ([block] + after)[1..] == after;
  }

  /** Block `m` sits in the flattening right after the blocks before it. */
  lemma {:induction false} FlattenBlockAt<T>(blocks: seq<seq<T>>, m: nat)
    requires m < |blocks|
    ensures var before := Flatten(blocks[..m]);
            var gs := Flatten(blocks);
            |before| + |blocks[m]| <= |gs| && gs[|before| .. |before| + |blocks[m]|] == blocks[m]
  {
    var block := blocks[m];
    var before := Flatten(blocks[..m]);
    var tail := blocks[m..];
    assert blocks[..m] + tail == blocks;
    FlattenAppend(blocks[..m], tail);
    FlattenCons(block, tail[1..]);
    assert [block] + tail[1..] == tail;
    SliceMiddle(before, block, Flatten(tail[1..]));
  }

  lemma SliceMiddle<T>(x: seq<T>, y: seq<T>, z: seq<T>)
    ensures |x| + |y| <= |x + (y + z)| && (x + (y + z))[|x| .. |x| + |y|] == y
  {
  }

  /** The first `m` blocks of a text's lines are the blocks of its first
      `m` lines, and block `m` is line `m` laid out on its own. */
  lemma LineBlocksPrefix(lines: seq<string>, cursor: Vec3, uvs: map<char, Quad>, widths: map<char, real>, m: nat)
    requires WidthsCover(uvs, widths)
    requires m < |lines|
    ensures var blocks := LineBlocks(lines, cursor, uvs, widths);
            && blocks[..m] == LineBlocks(lines[..m], cursor, uvs, widths)
            && blocks[m] == LineLayout(lines[m], m, cursor.(y := cursor.y - m as real), uvs, widths)
  {
    var blocks: seq<seq<Glyph>> := LineBlocks(lines, cursor, uvs, widths);
    var front: seq<seq<Glyph>> := LineBlocks(lines[..m], cursor, uvs, widths);
    assert |blocks[..m]| == |front|;
    forall k | 0 <= k < m
      ensures blocks[..m][k] == front[k]
    {
      assert lines[..m][k] == lines[k];
    }
  }

  /** The quads of line `m` of a text form one contiguous block of the
      result, after the quads of the lines before it: the layout of that
      line alone, numbered `m`, with the cursor `m` units lower. */
  lemma {:induction false} TextLineBlock(text: string, m: nat, cursor: Vec3,
                                         uvs: map<char, Quad>, widths: map<char, real>)
    requires WidthsCover(uvs, widths)
    requires m < |Lines(text)|
    ensures var lines := Lines(text);
            var before := Flatten(LineBlocks(lines[..m], cursor, uvs, widths));
            var block := LineLayout(lines[m], m, cursor.(y := cursor.y - m as real), uvs, widths);
            var gs := LayoutText(text, cursor, uvs, widths);
            |before| + |block| <= |gs| && gs[|before| .. |before| + |block|] == block
  {
    LayoutTextIsFlatten(text, cursor, uvs, widths);
    LineBlockAt(Lines(text), m, cursor, uvs, widths);
  }

  lemma LayoutTextIsFlatten(text: string, cursor: Vec3, uvs: map<char, Quad>, widths: map<char, real>)
    requires WidthsCover(uvs, widths)
    ensures LayoutText(text, cursor, uvs, widths) == Flatten(LineBlocks(Lines(text), cursor, uvs, widths))
  {
  }

  lemma {:induction false} LineBlockAt(lines: seq<string>, m: nat, cursor: Vec3,
                                       uvs: map<char, Quad>, widths: map<char, real>)
    requires WidthsCover(uvs, widths)
    requires m < |lines|
    ensures var before := Flatten(LineBlocks(lines[..m], cursor, uvs, widths));
            var block := LineLayout(lines[m], m, cursor.(y := cursor.y - m as real), uvs, widths);
            var gs := Flatten(LineBlocks(lines, cursor, uvs, widths));
            |before| + |block| <= |gs| && gs[|before| .. |before| + |block|] == block
  {
    LineBlocksPrefix(lines, cursor, uvs, widths, m);
    FlattenBlockAt(LineBlocks(lines, cursor, uvs, widths), m);
  }

  /** A text produces no quad at all, and so nothing to join, exactly when
      none of its lines has a drawn character. */
  lemma {:induction false} LayoutTextEmptyIff(text: string, cursor: Vec3,
                                              uvs: map<char, Quad>, widths: map<char, real>)
    requires WidthsCover(uvs, widths)
    ensures var lines := Lines(text);
            LayoutText(text, cursor, uvs, widths) == []
            <==> forall k :: 0 <= k < |lines| ==> Keys(lines[k], uvs) == []
  {
    var lines := Lines(text);
    var blocks: seq<seq<Glyph>> := LineBlocks(lines, cursor, uvs, widths);
    assert LayoutText(text, cursor, uvs, widths) == Flatten(blocks);
    FlattenEmptyIff(blocks);
  }

  lemma {:induction false} BlockSizesCount(blocks: seq<seq<Glyph>>, lines: seq<string>, uvs: map<char, Quad>)
    requires |blocks| == |lines|
    requires forall k :: 0 <= k < |blocks| ==> |blocks[k]| == |Keys(lines[k], uvs)|
    ensures TotalSize(blocks) == DrawnCount(lines, uvs)
  {
    if |blocks| > 0 {
      assert forall k :: 0 <= k < |blocks| - 1 ==> blocks[1..][k] == blocks[k + 1] && lines[1..][k] == lines[k + 1];
      BlockSizesCount(blocks[1..], lines[1..], uvs);
    }
  }

  /** A text yields exactly one quad per drawn character of its lines:
      one object is created per drawn character. */
  lemma {:induction false} LayoutTextCount(text: string, cursor: Vec3,
                                           uvs: map<char, Quad>, widths: map<char, real>)
    requires WidthsCover(uvs, widths)
    ensures |LayoutText(text, cursor, uvs, widths)| == DrawnCount(Lines(text), uvs)
  {
    var lines := Lines(text);
    var blocks: seq<seq<Glyph>> := LineBlocks(lines, cursor, uvs, widths);
    assert LayoutText(text, cursor, uvs, widths) == Flatten(blocks);
    BlockSizesCount(blocks, lines, uvs);
  }
}

=== FILE: pyarith.dfy ===
/** Python's integer `//` and `%`. Both round the quotient toward minus
    infinity, so the remainder takes the sign of the divisor; Dafny's own
    `/` and `%` are Euclidean and differ from Python's when the divisor is
    negative. */
module PyArith {

  /** `a // b` */
  function FloorDiv(a: int, b: int): (q: int)
    requires b != 0
    ensures b > 0 ==> b * q <= a < b * q + b
    ensures b < 0 ==> b * q + b < a <= b * q
  {
    if b > 0 then a / b else (-a) / (-b)
  }

  /** `a % b` */
  function FloorMod(a: int, b: int): (r: int)
    requires b != 0
    ensures a == b * FloorDiv(a, b) + r
    ensures b > 0 ==> 0 <= r < b
    ensures b < 0 ==> b < r <= 0
  {
    a - b * FloorDiv(a, b)
  }

  /** Quotient and remainder are unique: any split of `a` into `b * q + r`
      with `0 <= r < b` is the one Python computes. */
  lemma {:induction false} FloorDivUnique(a: int, b: int, q: int, r: int)
    requires b > 0 && 0 <= r < b && a == b * q + r
    ensures FloorDiv(a, b) == q && FloorMod(a, b) == r
  {
    var q' := FloorDiv(a, b);
    var r' := FloorMod(a, b);
    assert b * (q - q') == r' - r;
    if q > q' {
      MulAtLeast(b, q - q');
    } else if q < q' {
      MulAtLeast(b, q' - q);
    }
  }

  /** A positive multiple of `b` is at least `b`. */
  lemma {:induction false} MulAtLeast(b: int, k: int)
    requires b > 0 && k >= 1
    ensures b * k >= b
  {
    assert b * k == b * (k - 1) + b;
  }
}

=== FILE: results.dfy ===
/** Outcomes of the generator: a value, or the reason generation stopped. */
module Results {

  /** Why a run of the generator produced nothing. The first two are the
      messages the operator reports; the others are exceptions the code
      raises without catching them. */
  datatype Error =
    | NotSaved        // "Please save the Blender file before proceeding."
    | NoText          // "Please enter text content."
    | NoFont          // OSError from the imaging library: an empty font path opens no font
    | ZeroCellCount   // ZeroDivisionError from a cell count of 0
    | NoGlyphs        // IndexError: no quad was created, so there is nothing to join

  datatype Result<+T> = Ok(value: T) | Err(error: Error) {
    predicate IsFailure() {
      Err?
    }

    function PropagateFailure<U>(): Result<U>
      requires Err?
    {
      Err(error)
    }

    function Extract(): T
      requires Ok?
    {
      value
    }
  }
}

=== FILE: text.dfy ===
/** Text handling of the decal builder: the escaped line break, the split
    into lines, and the upper-casing used to look characters up. */
module Text {

  const Newline: char := '\n'
  const Backslash: char := '\\'

  /** Dotless i and long s, the two non-ASCII letters Python upper-cases
      to a single ASCII letter. */
  const DotlessI: char := '\U{0131}'
  const LongS: char := '\U{017F}'

  /** Python's `str.upper` on one character, for every character whose
      upper-case form is a single ASCII character: `a`..`z`, dotless i and
      long s. Every other character is kept as it is. */
  function Upper(c: char): (u: char)
    ensures !('a' <= u <= 'z')
    ensures u != c <==> 'a' <= c <= 'z' || c == DotlessI || c == LongS
    ensures 'a' <= c <= 'z' ==> u as int == c as int - 32
    ensures c == DotlessI ==> u == 'I'
    ensures c == LongS ==> u == 'S'
    ensures u as int < 128 <==> c as int < 128 || c == DotlessI || c == LongS
  {
    if 'a' <= c <= 'z' then (c as int - 32) as char
    else if c == DotlessI then 'I'
    else if c == LongS then 'S'
    else c
  }

  /** Number of occurrences of `c` in `s`. */
  function Count(s: string, c: char): (n: nat)
    ensures n <= |s|
    ensures n == 0 <==> c !in s
  {
    if |s| == 0 then 0 else (if s[0] == c then 1 else 0) + Count(s[1..], c)
  }

  /** Occurrences of the two-character sequence backslash, `n`, counted
      left to right without overlap, as `str.replace` finds them. */
  function EscapeCount(s: string): nat {
    if |s| < 2 then 0
    else if s[0] == Backslash && s[1] == 'n' then 1 + EscapeCount(s[2..])
    else EscapeCount(s[1..])
  }

  /** `text.replace('\\n', '\n')`: every backslash followed by `n` becomes a
      line break. Each replacement shortens the text by one character and
      adds one line break; afterwards no backslash is followed by `n`. */
  function Unescape(s: string): (r: string)
    ensures |r| == |s| - EscapeCount(s)
    ensures Count(r, Newline) == Count(s, Newline) + EscapeCount(s)
    ensures |r| > 0 ==> |s| > 0 && (r[0] == s[0] || r[0] == Newline)
    ensures forall k :: 0 <= k < |r| - 1 ==> !(r[k] == Backslash && r[k + 1] == 'n')
    ensures EscapeCount(s) == 0 ==> r == s
  {
    if |s| < 2 then s
    else if s[0] == Backslash && s[1] == 'n' then [Newline] + Unescape(s[2..])
    else
      var rest := Unescape(s[1..]);
      assert s[1..][0] == s[1];
      [s[0]] + rest
  }

  /** An escape at the front becomes a line break. */
  lemma UnescapeEscapeAtFront(t: string)
    ensures Unescape([Backslash, 'n'] + t) == [Newline] + Unescape(t)
  {
    assert ([Backslash, 'n'] + t)[2..] == t;
  }

  /** A character that does not start an escape is kept. */
  lemma UnescapeCharAtFront(c: char, t: string)
    requires !(c == Backslash && |t| > 0 && t[0] == 'n')
    ensures Unescape([c] + t) == [c] + Unescape(t)
  {
    if |t| > 0 {
      assert ([c] + t)[1..] == t;
    }
  }

  /** Each escape is replaced where it stands and the text around it is
      kept: together with `Unescape` leaving escape-free text alone, this
      fixes the result for every text, stray backslashes and raw line
      breaks included. A backslash at the end of `a` does not combine with
      the escape's backslash, so the split point is never ambiguous. */
  lemma {:induction false} UnescapeSplice(a: string, b: string)
    ensures Unescape(a + [Backslash, 'n'] + b) == Unescape(a) + [Newline] + Unescape(b)
  {
    if |a| == 0 {
      assert a + [Backslash, 'n'] + b == [Backslash, 'n'] + b;
      UnescapeEscapeAtFront(b);
    } else {
      var n := FrontToken(a, b);
      UnescapeSplice(a[n..], b);
      Regroup(Unescape(a[..n]), Unescape(a[n..]), Unescape(b));
    }
  }

  /** The first token of a non-empty `a`, an escape or a single character,
      is unescaped on its own, whether or not an escape follows `a`. */
  lemma FrontToken(a: string, b: string) returns (n: nat)
    requires |a| > 0
    ensures 1 <= n <= |a|
    ensures Unescape(a + [Backslash, 'n'] + b) == Unescape(a[..n]) + Unescape(a[n..] + [Backslash, 'n'] + b)
    ensures Unescape(a) == Unescape(a[..n]) + Unescape(a[n..])
  {
    var e := [Backslash, 'n'];
    n := if a[0] == Backslash && |a| >= 2 && a[1] == 'n' then 2 else 1;
    var head, rest := a[..n], a[n..];
    var t := rest + e + b;
    SplitFront(a, e, b, n);
    assert |rest| > 0 ==> rest[0] == a[n];
    assert |rest| > 0 ==> t[0] == rest[0];
    assert |rest| == 0 ==> t[0] == Backslash;
    UnescapeHead(head, t);
    UnescapeHead(head, rest);
  }

  /** Cutting `a` after its first `n` characters, with and without a
      splice after it. */
  lemma SplitFront(a: string, e: string, b: string, n: nat)
    requires n <= |a|
    ensures a == a[..n] + a[n..]
    ensures a + e + b == a[..n] + (a[n..] + e + b)
  {
    assert a == a[..n] + a[n..];
  }

  /** Unescaping goes through a first token that is either an escape or a
      character that does not start one. */
  lemma UnescapeHead(head: string, t: string)
    requires head == [Backslash, 'n'] || (|head| == 1 && !(head[0] == Backslash && |t| > 0 && t[0] == 'n'))
    ensures Unescape(head + t) == Unescape(head) + Unescape(t)
  {
    if head == [Backslash, 'n'] {
      UnescapeEscapeAtFront(t);
      UnescapeEscapeAtFront([]);
      assert head + [] == head;
    } else {
      UnescapeCharAtFront(head[0], t);
      assert head == [head[0]];
    }
  }

  lemma Regroup(h: string, u: string, v: string)
    ensures h + (u + [Newline] + v) == (h + u) + [Newline] + v
  {
  }

  /** Writes each line break of `t` as backslash, `n`. */
  function Escape(t: string): (s: string)
    ensures |s| == |t| + Count(t, Newline)
  {
    if |t| == 0 then []
    else (if t[0] == Newline then [Backslash, 'n'] else [t[0]]) + Escape(t[1..])
  }

  /** Unescaping inverts escaping for text without backslashes. */
  lemma {:induction false} UnescapeEscape(t: string)
    requires Backslash !in t
    ensures Unescape(Escape(t)) == t
  {
    if |t| > 0 {
      assert Backslash !in t[1..];
      UnescapeEscape(t[1..]);
      if t[0] != Newline {
        var e := Escape(t[1..]);
        assert Escape(t) == [t[0]] + e;
        if |e| > 0 {
          assert Unescape(Escape(t)) == [t[0]] + Unescape(e);
        }
      }
    }
  }

  /** The lines joined back with line breaks between them. */
  function JoinLines(lines: seq<string>): string
    requires |lines| > 0
  {
    if |lines| == 1 then lines[0] else lines[0] + [Newline] + JoinLines(lines[1..])
  }

  /** Prefixing the first line prefixes the joined text. */
  lemma {:induction false} JoinLinesPrefix(x: string, lines: seq<string>)
    requires |lines| > 0
    ensures JoinLines([x + lines[0]] + lines[1..]) == x + JoinLines(lines)
  {
    var m := [x + lines[0]] + lines[1..];
    assert |m| == |lines| && m[0] == x + lines[0];
    if |lines| > 1 {
      assert m[1..] == lines[1..];
      var rest := [Newline] + JoinLines(lines[1..]);
      assert JoinLines(m) == (x + lines[0]) + rest;
      assert JoinLines(lines) == lines[0] + rest;
    }
  }

  /** `text.split("\n")`: one line per line-break-separated segment, so
      always one more line than there are line breaks, none holding a line
      break, and joining them gives the text back. */
  function SplitLines(s: string): (lines: seq<string>)
    ensures |lines| == Count(s, Newline) + 1
    ensures forall k :: 0 <= k < |lines| ==> Newline !in lines[k]
    ensures JoinLines(lines) == s
    decreases |s|
  {
    if |s| == 0 then [""]
    else if s[0] == Newline then
      var rest := SplitLines(s[1..]);
      assert s == [Newline] + s[1..];
      [""] + rest
    else
      var rest := SplitLines(s[1..]);
      JoinLinesPrefix([s[0]], rest);
      assert s == [s[0]] + s[1..];
      [[s[0]] + rest[0]] + rest[1..]
  }

  /** A split is determined by its join: two sequences of lines without
      line breaks that join to the same text are equal, so `SplitLines` is
      the only such split. */
  lemma {:induction false} SplitJoinRoundTrip(lines: seq<string>)
    requires |lines| > 0
    requires forall k :: 0 <= k < |lines| ==> Newline !in lines[k]
    ensures SplitLines(JoinLines(lines)) == lines
    decreases |lines|, |lines[0]|
  {
    if |lines| == 1 {
      NoNewlineSplit(lines[0]);
    } else if |lines[0]| == 0 {
      SplitJoinRoundTrip(lines[1..]);
      SplitJoinEmptyHead(lines);
    } else {
      var m := [lines[0][1..]] + lines[1..];
      assert Newline !in lines[0][1..];
      assert forall k :: 0 <= k < |m| ==> Newline !in m[k];
      SplitJoinRoundTrip(m);
      SplitJoinCharHead(lines);
    }
  }

  /** The round-trip step for a first line that is empty. */
  lemma SplitJoinEmptyHead(lines: seq<string>)
    requires |lines| > 1 && lines[0] == []
    requires SplitLines(JoinLines(lines[1..])) == lines[1..]
    ensures SplitLines(JoinLines(lines)) == lines
  {
    var t := lines[1..];
    assert JoinLines(lines) == [Newline] + JoinLines(t);
    SplitAtNewline(JoinLines(t));
    assert [""] + t == lines;
  }

  /** The round-trip step for a first line that starts with a character. */
  lemma SplitJoinCharHead(lines: seq<string>)
    requires |lines| > 1 && |lines[0]| > 0 && Newline !in lines[0]
    requires var m := [lines[0][1..]] + lines[1..];
             SplitLines(JoinLines(m)) == m
    ensures SplitLines(JoinLines(lines)) == lines
  {
    var h := lines[0];
    var m := [h[1..]] + lines[1..];
    JoinLinesPrefix([h[0]], m);
    assert [h[0]] + h[1..] == h;
    assert [[h[0]] + m[0]] + m[1..] == lines;
    SplitAtChar(h[0], JoinLines(m));
  }

  /** A leading line break starts with an empty line. */
  lemma SplitAtNewline(t: string)
    ensures SplitLines([Newline] + t) == [""] + SplitLines(t)
  {
    assert ([Newline] + t)[1..] == t;
  }

  /** A leading character other than a line break goes to the first line. */
  lemma SplitAtChar(c: char, t: string)
    requires c != Newline
    ensures var rest := SplitLines(t);
            SplitLines([c] + t) == [[c] + rest[0]] + rest[1..]
  {
    assert ([c] + t)[1..] == t;
  }

  /** Text with no line break is a single line. */
  lemma {:induction false} NoNewlineSplit(s: string)
    requires Newline !in s
    ensures SplitLines(s) == [s]
    decreases |s|
  {
    if |s| > 0 {
      assert Newline !in s[1..];
      NoNewlineSplit(s[1..]);
      assert [s[0]] + s[1..] == s;
    }
  }

  /** The lines the decal builder lays out: escapes replaced, then split.
      What they hold is `LinesJoin`. */
  function Lines(text: string): (lines: seq<string>)
    ensures |lines| == Count(text, Newline) + EscapeCount(text) + 1
    ensures forall k :: 0 <= k < |lines| ==> Newline !in lines[k]
  {
    SplitLines(Unescape(text))
  }

  /** Joined back with line breaks, the lines give the unescaped text; with
      `SplitJoinRoundTrip` they are therefore its line-break-separated
      segments, and no other lines. */
  lemma LinesJoin(text: string)
    ensures JoinLines(Lines(text)) == Unescape(text)
  {
  }

  /** The lines are exactly those of the unescaped text: any lines without
      line breaks that join to it are the text's lines. */
  lemma {:induction false} LinesUnique(text: string, lines: seq<string>)
    requires |lines| > 0
    requires forall k :: 0 <= k < |lines| ==> Newline !in lines[k]
    requires JoinLines(lines) == Unescape(text)
    ensures Lines(text) == lines
  {
    SplitJoinRoundTrip(lines);
  }
}

=== FILE: uv.dfy ===
/** Normalised texture rectangles for the characters of the atlas, and the
    per-glyph horizontal rescaling of such a rectangle. */
module Uv {
  import opened Geometry
  import opened PyArith
  import opened Grid
  import opened Results

  /** The texture rectangle of a grid cell: u runs left to right over
      `cols` columns, v runs bottom to top, so row 0 (the top row of the
      image) is the band just below v = 1. Corners are (umin,vmin),
      (umax,vmin), (umax,vmax), (umin,vmax). */
  function CellRect(c: Cell, cols: int, rows: int): (q: Quad)
    requires cols != 0 && rows != 0
    ensures cols > 0 && rows > 0 ==> IsAxisRect(q)
    ensures q.c1.x - q.c0.x == 1.0 / cols as real
    ensures q.c3.y - q.c0.y == 1.0 / rows as real
  {
    var uMin := c.col as real / cols as real;
    var uMax := (c.col + 1) as real / cols as real;
    var vMin := 1.0 - (c.row + 1) as real / rows as real;
    var vMax := 1.0 - c.row as real / rows as real;
    Quad(Vec2(uMin, vMin), Vec2(uMax, vMin), Vec2(uMax, vMax), Vec2(uMin, vMax))
  }

  /** The UV rectangle the source records for character `i`, with the row
      taken as `i // rows`. */
  function UvRect(i: nat, cols: int, rows: int): (q: Quad)
    requires cols != 0 && rows != 0
    ensures cols > 0 && rows > 0 ==> IsAxisRect(q)
    ensures q.c1.x - q.c0.x == 1.0 / cols as real
    ensures q.c3.y - q.c0.y == 1.0 / rows as real
  {
    CellRect(UvCell(i, cols, rows), cols, rows)
  }

  /** The UV rectangle of the cell the atlas actually draws character `i`
      into (row `i // cols`). */
  function UvRectIntended(i: nat, cols: int, rows: int): (q: Quad)
    requires cols != 0 && rows != 0
    ensures cols > 0 && rows > 0 ==> IsAxisRect(q)
    ensures q.c1.x - q.c0.x == 1.0 / cols as real
    ensures q.c3.y - q.c0.y == 1.0 / rows as real
  {
    CellRect(AtlasCell(i, cols), cols, rows)
  }

  /** `a / n` lies in [0, 1] exactly when `0 <= a <= n`. */
  lemma {:induction false} FractionInUnitIff(a: int, n: int)
    requires n > 0
    ensures InUnitInterval(a as real / n as real) <==> 0 <= a <= n
  {
    var f := a as real / n as real;
    assert f * n as real == a as real;
    if f < 0.0 {
      assert f * n as real < 0.0;
    } else if f > 1.0 {
      assert (f - 1.0) * n as real > 0.0;
    }
  }

  /** The band from `a / n` to `(a + 1) / n` lies in [0, 1] exactly when `a`
      is one of the `n` bands. */
  lemma {:induction false} BandInUnitIff(a: int, n: int)
    requires n > 0
    ensures (InUnitInterval(a as real / n as real) && InUnitInterval((a + 1) as real / n as real))
            <==> 0 <= a < n
  {
    FractionInUnitIff(a, n);
    FractionInUnitIff(a + 1, n);
  }

  /** A cell's rectangle lies in the unit square exactly when the cell is a
      cell of the grid. */
  lemma {:induction false} CellRectInUnitSquareIff(c: Cell, cols: int, rows: int)
    requires cols > 0 && rows > 0
    ensures InUnitSquare(CellRect(c, cols, rows)) <==> InGrid(c, cols, rows)
  {
    var q := CellRect(c, cols, rows);
    BandInUnitIff(c.col, cols);
    BandInUnitIff(c.row, rows);
    var lo := c.row as real / rows as real;
    var hi := (c.row + 1) as real / rows as real;
    assert q.c0.y == 1.0 - hi && q.c3.y == 1.0 - lo;
    assert InUnitInterval(1.0 - hi) <==> InUnitInterval(hi);
    assert InUnitInterval(1.0 - lo) <==> InUnitInterval(lo);
  }

  /** As written, character `i` gets a rectangle inside the texture exactly
      when `i < rows * rows`: the column count plays no part. */
  lemma {:induction false} UvRectInUnitSquareIff(i: nat, cols: int, rows: int)
    requires cols > 0 && rows > 0
    ensures InUnitSquare(UvRect(i, cols, rows)) <==> i < rows * rows
  {
    var c := UvCell(i, cols, rows);
    CellRectInUnitSquareIff(c, cols, rows);
    RowBelowIff(i, rows, c.row, rows);
  }

  /** With the atlas's own row, character `i` gets a rectangle inside the
      texture exactly when the grid has a cell for it. */
  lemma {:induction false} UvRectIntendedInUnitSquareIff(i: nat, cols: int, rows: int)
    requires cols > 0 && rows > 0
    ensures InUnitSquare(UvRectIntended(i, cols, rows)) <==> i < cols * rows
  {
    CellRectInUnitSquareIff(AtlasCell(i, cols), cols, rows);
    AtlasCellInGridIff(i, cols, rows);
  }

  /** Multiplying by a positive factor keeps the sign. */
  lemma SignOfProduct(a: real, n: real)
    requires n > 0.0
    ensures a * n > 0.0 <==> a > 0.0
    ensures a * n < 0.0 <==> a < 0.0
  {
    if a > 0.0 { assert a * n > 0.0; }
    if a < 0.0 { assert (-a) * n > 0.0; }
  }

  /** `k / n <= t <= (k + 1) / n` follows from `k <= t * n <= k + 1`. */
  lemma {:induction false} BandBounds(t: real, n: real, k: real)
    requires n > 0.0 && k <= t * n <= k + 1.0
    ensures k / n <= t <= (k + 1.0) / n
  {
    var lo := k / n;
    var hi := (k + 1.0) / n;
    assert lo * n == k && hi * n == k + 1.0;
    assert (t - lo) * n == t * n - k;
    assert (hi - t) * n == k + 1.0 - t * n;
    SignOfProduct(t - lo, n);
    SignOfProduct(hi - t, n);
  }

  /** A point of [0, 1] scaled by `n` lies in [0, n]. */
  lemma {:induction false} ScaledInRange(t: real, n: real)
    requires 0.0 <= t <= 1.0 && n > 0.0
    ensures 0.0 <= t * n <= n
  {
    assert (1.0 - t) * n == n - t * n;
    SignOfProduct(1.0 - t, n);
    SignOfProduct(t, n);
  }

  /** The floor of a value in [0, n] is in 0 .. n and at most one below it. */
  lemma FloorInRange(s: real, n: int)
    requires 0.0 <= s <= n as real
    ensures 0 <= s.Floor <= n
    ensures s.Floor as real <= s < s.Floor as real + 1.0
  {
  }

  /** The band `k` of `n` equal bands of [0, 1] that holds `t`. */
  function BandOf(t: real, n: int): (k: int)
    requires 0.0 <= t <= 1.0 && n > 0
    ensures 0 <= k < n
    ensures k as real / n as real <= t <= (k + 1) as real / n as real
  {
    var s := t * n as real;
    ScaledInRange(t, n as real);
    FloorInRange(s, n);
    var k := if s.Floor == n then n - 1 else s.Floor;
    BandBounds(t, n as real, k as real);
    k
  }

  /** Distinct bands of the same axis overlap at most in a boundary. */
  lemma {:induction false} BandsDisjoint(a: int, b: int, n: int, t: real)
    requires n > 0 && a < b
    ensures !(t < (a + 1) as real / n as real && b as real / n as real < t)
  {
    DivMonotone((a + 1) as real, b as real, n as real);
  }

  lemma DivMonotone(a: real, b: real, n: real)
    requires n > 0.0 && a <= b
    ensures a / n <= b / n
  {
  }

  /** The rectangles of distinct characters, taken at the cells the atlas
      draws them into, never share an interior point. */
  lemma {:induction false} IntendedRectsDisjoint(i: nat, j: nat, cols: int, rows: int, p: Vec2)
    requires cols > 0 && rows > 0 && i != j
    ensures !(Interior(UvRectIntended(i, cols, rows), p) && Interior(UvRectIntended(j, cols, rows), p))
  {
    var ci := AtlasCell(i, cols);
    var cj := AtlasCell(j, cols);
    assert ci != cj;
    if ci.col < cj.col {
      BandsDisjoint(ci.col, cj.col, cols, p.x);
    } else if cj.col < ci.col {
      BandsDisjoint(cj.col, ci.col, cols, p.x);
    } else if ci.row < cj.row {
      BandsDisjoint(ci.row, cj.row, rows, 1.0 - p.y);
    } else {
      BandsDisjoint(cj.row, ci.row, rows, 1.0 - p.y);
    }
  }

  /** Every point of the unit square lies in the rectangle of some index the
      grid has room for: with the atlas's own rows, the rectangles of
      indices `0 .. cols * rows - 1` leave no gap. */
  lemma {:induction false} IntendedRectsCover(cols: int, rows: int, p: Vec2)
    requires cols > 0 && rows > 0
    requires InUnitInterval(p.x) && InUnitInterval(p.y)
    ensures exists i: nat :: i < cols * rows && Contains(UvRectIntended(i, cols, rows), p)
  {
    var c := Cell(BandOf(p.x, cols), BandOf(1.0 - p.y, rows));
    CellIndexRoundTrip(c, cols);
    var i: nat := CellIndex(c, cols);
    AtlasCellInGridIff(i, cols, rows);
    assert Contains(UvRectIntended(i, cols, rows), p);
  }

  /** Index of the last occurrence of `c` in `s`. */
  function LastIndex(s: seq<char>, c: char): (k: nat)
    requires c in s
    ensures k < |s| && s[k] == c
    ensures forall j :: k < j < |s| ==> s[j] != c
  {
    if s[|s| - 1] == c then |s| - 1 else LastIndex(s[..|s| - 1], c)
  }

  /** The dictionary filled by assigning, in order, the rectangle of index
      `i` to key `chars[i]`. A later assignment overwrites an earlier one,
      so a repeated character keeps the rectangle of its last occurrence. */
  function UvEntries(chars: seq<char>, cols: int, rows: int): (m: map<char, Quad>)
    requires cols != 0 && rows != 0
    ensures forall c :: c in m <==> c in chars
    ensures forall c :: c in m ==> m[c] == UvRect(LastIndex(chars, c), cols, rows)
    decreases |chars|
  {
    if |chars| == 0 then map[]
    else
      var init := chars[..|chars| - 1];
      var last := chars[|chars| - 1];
      assert forall c :: c in chars <==> c in init || c == last;
      UvEntries(init, cols, rows)[last := UvRect(|chars| - 1, cols, rows)]
  }

  /** The UV loop of the decal builder. A zero cell count raises
      ZeroDivisionError on the first character; an empty character set
      never enters the loop and yields an empty dictionary. */
  function UvTable(chars: seq<char>, cols: int, rows: int): (r: Result<map<char, Quad>>)
    ensures r.Err? <==> |chars| > 0 && (cols == 0 || rows == 0)
    ensures r.Err? ==> r.error == ZeroCellCount
    ensures r.Ok? ==> forall c :: c in r.value <==> c in chars
    ensures r.Ok? && cols != 0 && rows != 0 ==>
              forall c :: c in r.value ==> r.value[c] == UvRect(LastIndex(chars, c), cols, rows)
  {
    if |chars| == 0 then Ok(map[])
    else if cols == 0 || rows == 0 then Err(ZeroCellCount)
    else Ok(UvEntries(chars, cols, rows))
  }

  /** Horizontal centre of a quad, from its first two corners. */
  function CentreU(q: Quad): real {
    (q.c0.x + q.c1.x) / 2.0
  }

  /** Vertical centre of a quad, from its first and last corners. */
  function CentreV(q: Quad): real {
    (q.c0.y + q.c3.y) / 2.0
  }

  function ScaleCorner(p: Vec2, cu: real, cv: real, w: real): Vec2 {
    Vec2(cu + (p.x - cu) * w, cv + (p.y - cv))
  }

  /** Stretch a quad horizontally by `w` about its centre, as the decal
      builder does to the UVs of a glyph of width `w`. The centre stays,
      v is untouched, and the u-extent is multiplied by `w`. */
  function ScaleU(q: Quad, w: real): (r: Quad)
    ensures CentreU(r) == CentreU(q) && CentreV(r) == CentreV(q)
    ensures r.c0.y == q.c0.y && r.c1.y == q.c1.y && r.c2.y == q.c2.y && r.c3.y == q.c3.y
    ensures r.c1.x - r.c0.x == (q.c1.x - q.c0.x) * w
    ensures r.c2.x - r.c3.x == (q.c2.x - q.c3.x) * w
    ensures IsAxisRect(q) && w >= 0.0 ==> IsAxisRect(r)
    ensures w == 1.0 ==> r == q
  {
    var cu := CentreU(q);
    var cv := CentreV(q);
    Quad(ScaleCorner(q.c0, cu, cv, w), ScaleCorner(q.c1, cu, cv, w),
         ScaleCorner(q.c2, cu, cv, w), ScaleCorner(q.c3, cu, cv, w))
  }

  /** Scaling by `w` and then by `1 / w` gives the quad back. */
  lemma {:induction false} ScaleURoundTrip(q: Quad, w: real)
    requires w != 0.0
    ensures ScaleU(ScaleU(q, w), 1.0 / w) == q
  {
    var r := ScaleU(q, w);
    var cu := CentreU(q);
    assert CentreU(r) == cu;
    assert (w * (1.0 / w)) == 1.0;
    forall p: Vec2 ensures (cu + (p.x - cu) * w - cu) * (1.0 / w) == p.x - cu {
      calc {
        (cu + (p.x - cu) * w - cu) * (1.0 / w);
        (p.x - cu) * (w * (1.0 / w));
        p.x - cu;
      }
    }
  }
}

=== FILE: widths.dfy ===
/** The width, in scene units, of the quad for each character. */
module Widths {

  /** Measured widths are scaled by this factor after dividing by the
      font's target height. */
  const WidthFactor: real := 0.8

  /** Widths from the font: the rendered mask width of each character,
      divided by the target height, times `WidthFactor`. `maskWidth` stands
      for the imaging library's measurement. */
  function MeasuredWidths(chars: seq<char>, maskWidth: char -> nat, targetHeight: int): (m: map<char, real>)
    requires targetHeight > 0
    ensures forall c :: c in m <==> c in chars
    ensures forall c :: c in m ==> 0.0 <= m[c] && m[c] * targetHeight as real == maskWidth(c) as real * WidthFactor
  {
    map c | c in chars :: maskWidth(c) as real / targetHeight as real * WidthFactor
  }

  /** Widths when no font path is set: every character is one unit wide. */
  function UnitWidths(chars: seq<char>): (m: map<char, real>)
    ensures forall c :: c in m <==> c in chars
    ensures forall c :: c in m ==> m[c] == 1.0
  {
    map c | c in chars :: 1.0
  }

  /** The width table of the decal builder: measured when a font path is
      set (a non-empty string), one unit per character otherwise. */
  function CharWidths(chars: seq<char>, fontPath: string, maskWidth: char -> nat, fontSize: int): (m: map<char, real>)
    requires fontPath != [] ==> fontSize > 0
    ensures forall c :: c in m <==> c in chars
    ensures forall c :: c in m ==> 0.0 <= m[c]
    ensures fontPath == [] ==> forall c :: c in m ==> m[c] == 1.0
    ensures fontPath != [] ==> forall c :: c in m ==> m[c] * fontSize as real == maskWidth(c) as real * WidthFactor
  {
    if fontPath != [] then MeasuredWidths(chars, maskWidth, fontSize) else UnitWidths(chars)
  }
}
